=== FILE: README.md ===
# XdgWatcher in Dafny

A model of the application-directory watcher of the Unity launcher
(`XdgWatcher`, in `plugins/Unity/Launcher/xdgwatcher.cpp`). The watcher does two jobs:

- **Application identifiers.** It derives an identifier for each desktop-entry file.
  - A file can name its application itself, on a line that starts with
    `X-Ubuntu-Application-ID=`. This is the "Ubuntu style" identifier, with the version
    after the last `_` stripped.
  - Otherwise the identifier is derived from where the file lies below one of the
    application directories, which the code calls roots. The code aims at the
    freedesktop desktop file ID, but does not follow it exactly, and the model copies
    the code's departures:
    - a root is matched as a substring of the file's directory, not as a leading
      directory;
    - the roots are tried in order, and a root equal to the directory stops the search;
    - every occurrence of the root, of `/` and of `.desktop` is replaced, not only the
      leading or trailing one;
    - a file in a sub-directory of the first root that occurs in its directory gets an
      identifier with a leading `-`, as long as that root does not occur again in the
      rest of its path.
- **Watch set.** It keeps a watch set of directories and desktop files.
  - At construction it watches every root that exists, together with the desktop files
    directly inside it.
  - On a directory notification it watches and announces (`appAdded`) every desktop
    file it was not yet watching.
  - On a file notification it announces `appInfoChanged` when the file still exists.
    When it does not, it announces `appRemoved` with the identifier derived from the
    path alone.

How the model is built:

- The filesystem is a value: the listing of each existing directory, and the lines of
  each existing file (`None` when it cannot be read).
- The roots are a parameter.
- Each handler is a function from the current watch set to the next watch set plus the
  events it emits.

Modules:

- `Optional`: the option type.
- `Strings`: the `QString` operations `startsWith`, `contains`, `replace`, `split` and
  `join`.
- `Paths`: the `QFileInfo` path parts, and the path of a listed entry.
- `AppId`: `stripAppIdVersion`, `toStandardAppId` and `toAppId`.
- `Watcher`: the filesystem, the watch set, the events, the constructor and both
  handlers.
- `Reconcile`: properties of sequences of handler calls.
- `Scenarios`: create, modify, delete and rename, told through the handlers.
- `AppIdExamples`: worked identifiers.
- `ScenarioExamples`: the scenarios on a disk whose only root is `/apps`.

## Where the code departs from the desktop file ID

The comment above `toStandardAppId` (lines 61-62) points to the desktop file ID of the
freedesktop Desktop Entry Specification. There, the ID of a file below
`$XDG_DATA_DIRS/applications` is its path relative to that directory, with every `/`
turned into `-`; the ID keeps the `.desktop` extension. The code departs from this in
three ways, and the model follows the code in each.

- **Root match.** The specification makes the ID relative to the applications
  directory the file lies in. The code accepts any root that occurs somewhere in the
  file's directory (`contains`). `AppIdExamples.SubstringRootExample` shows a root
  `/opt/app` matched inside `/opt/apps`.
- **Leading `-`.** The code deletes the root but not the `/` after it, so a file in a
  sub-directory gets an identifier that starts with `-`: `-sub-x` where the
  specification gives `sub-x.desktop`. `AppId.SubPathAppId` and
  `AppIdExamples.SubDirectoryExample` show it.
- **Extension and repeats.** The code deletes every `.desktop` from the identifier,
  and every occurrence of the root, not only the leading root and the trailing
  extension. `AppId.SubPathLeadingDash` proves the leading `-` for a path whose rest
  does not hold the root again; `AppId.SubPathAppId` gives the whole identifier when,
  in addition, neither the sub-directory nor the base name holds `.desktop`.
  `AppIdExamples.RepeatedRootExample` and `AppIdExamples.InnerExtensionExample` show a
  repeated root and an inner `.desktop`.

Two more places where the code does something a reader may not expect:

- **Tagged line.** A desktop-entry line is a `key=value` pair. For the vendor key, the
  code does not take the value after the key. It deletes every occurrence of
  `X-Ubuntu-Application-ID=` from the line. `AppIdExamples.RepeatedTagExample` shows
  the difference.
- **Removal identifier.** The comment above the removal (lines 122-123) says both
  kinds of identifier should be removed. The code emits only the one derived from the
  path. `ScenarioExamples.VendorRemovalExample` shows a file added as `com.foo` but removed
  as `x`.

## Model

| member | source | states |
|---|---|---|
| Strings.ReplaceChar | plugins/Unity/Launcher/xdgwatcher.cpp:72 | Replacing `/` by `-` changes every `/` in place and keeps every other character and the length. |
| Strings.RemoveAllAbsent | plugins/Unity/Launcher/xdgwatcher.cpp:71 | Replacing a pattern by nothing leaves a text that does not contain the pattern unchanged. |
| Strings.RemoveLeading | plugins/Unity/Launcher/xdgwatcher.cpp:71 | A path that starts with the root and holds no second occurrence of it becomes the rest of the path once the root is replaced by nothing. |
| Strings.RemoveFirst | plugins/Unity/Launcher/xdgwatcher.cpp:71 | A leading occurrence of the pattern is deleted and the pass goes on with the rest, which may start with the pattern again. |
| Strings.RemoveAllKeepsOut | plugins/Unity/Launcher/xdgwatcher.cpp:73 | Deleting `.desktop` brings in no character, so the encoded identifier stays free of `/`. |
| Strings.RemoveTrailing | plugins/Unity/Launcher/xdgwatcher.cpp:73 | A text that does not hold `.desktop` gets its trailing `.desktop` deleted and nothing else. |
| Strings.RemoveAllSkips | plugins/Unity/Launcher/xdgwatcher.cpp:73 | The deletion pass leaves alone a prefix that cannot start the pattern and works on what follows it. |
| Strings.Split | plugins/Unity/Launcher/xdgwatcher.cpp:56 | `split("_")` gives at least one part, no part holds `_`, and a text without `_` is its own single part. |
| Strings.JoinSplit | plugins/Unity/Launcher/xdgwatcher.cpp:56-58 | Joining the parts of a split with the same separator gives back the text. |
| Strings.SplitJoin | plugins/Unity/Launcher/xdgwatcher.cpp:56-58 | Splitting a join of separator-free parts gives back the parts. |
| Strings.JoinLast | plugins/Unity/Launcher/xdgwatcher.cpp:57-58 | A join of two or more parts is the join without the last part, then `_`, then the last part. |
| Paths.LastIndexOf | plugins/Unity/Launcher/xdgwatcher.cpp:66 | Gives the position of the last occurrence of a character, or -1 exactly when there is none. |
| Paths.DirOf | plugins/Unity/Launcher/xdgwatcher.cpp:66-69 | `absolutePath` is empty for a path without `/`. Otherwise it is a non-empty prefix of the path, followed in the path by the last `/`; it is `/` itself for a file at the top of the tree. |
| Paths.FileName | plugins/Unity/Launcher/xdgwatcher.cpp:77 | `fileName` holds no `/` and ends the path, and a `/` comes right before it unless it is the whole path: it is the text after the last `/`. |
| Paths.CompleteBaseName | plugins/Unity/Launcher/xdgwatcher.cpp:77 | `completeBaseName` is the file name up to its last `.`, or the whole file name when it has no `.`. |
| Paths.Suffix | plugins/Unity/Launcher/xdgwatcher.cpp:47 | `suffix` holds no `.`, is empty when the file name has no `.`, and the file name is the complete base name, a `.`, then the suffix. |
| Paths.ChildPathParts | plugins/Unity/Launcher/xdgwatcher.cpp:45-48 | For an entry of a listed directory, `absolutePath` is that directory and `fileName` is the entry's name. |
| AppId.StripAppIdVersion | plugins/Unity/Launcher/xdgwatcher.cpp:55-59 | The result is the text before the last `_` of the raw identifier, so the raw identifier is the result, `_`, then a piece without `_`. It is empty when the raw identifier has no `_`, the empty text included. |
| AppId.StripAppIdVersionAt | plugins/Unity/Launcher/xdgwatcher.cpp:55-59 | When the last `_` is at position k, the result is the first k characters. |
| AppId.EncodeUnderRoot | plugins/Unity/Launcher/xdgwatcher.cpp:70-74 | The identifier encoded from a path holds no `/`. |
| AppId.StandardAppId | plugins/Unity/Launcher/xdgwatcher.cpp:63-78 | When the first root occurring in the file's directory is that directory, the result is the complete base name. When it is another root, the result is the path encoded against that root. When no root occurs, the result is the complete base name. The result never holds `/`. |
| AppId.ResolveAppId | plugins/Unity/Launcher/xdgwatcher.cpp:85-95 | The first line starting with the tag decides: the result is that line with every tag deleted and the version stripped. When no line starts with the tag, the result is the standard identifier. |
| AppId.ReplaceSlashesInSubPath | plugins/Unity/Launcher/xdgwatcher.cpp:72 | In `/<sub>/<base>.desktop` the two separators become `-`, and so do the `/` inside `sub`. |
| AppId.EncodeSubPath | plugins/Unity/Launcher/xdgwatcher.cpp:70-74 | A path `<root>/<sub>/<base>.desktop` whose rest does not hold the root again, and whose `sub` and `base` hold no `.desktop`, is encoded as `-<sub>-<base>` with the `/` inside `sub` turned into `-`. |
| AppId.SubPathAppId | plugins/Unity/Launcher/xdgwatcher.cpp:63-78 | A desktop file one or more levels below the first root that occurs gets `-<sub>-<base>`, dots in the names included: the desktop file ID with a leading `-` and without the extension. It needs that the rest of the path does not hold the root again and that neither `sub` nor `base` holds `.desktop`. |
| AppId.SubPathLeadingDash | plugins/Unity/Launcher/xdgwatcher.cpp:63-78 | A desktop file one or more levels below the first root that occurs, whose rest of the path does not hold the root again, gets an identifier that starts with `-`, whatever its names hold. |
| AppId.DirectlyInFirstRoot | plugins/Unity/Launcher/xdgwatcher.cpp:66-77 | A desktop file directly in the first root is known by its name without the extension. |
| AppId.SubPathOfFirstRoot | plugins/Unity/Launcher/xdgwatcher.cpp:69-74 | A file `<root>/<sub>/<base>.desktop` below the first root gets `-<sub>-<base>`, when the rest does not hold the root again and neither `sub` nor `base` holds `.desktop`. |
| AppId.EncodedUnderFirstRoot | plugins/Unity/Launcher/xdgwatcher.cpp:69-74 | A file in a directory that strictly extends the first root is encoded against that root. |
| Watcher.ToAppId | plugins/Unity/Launcher/xdgwatcher.cpp:80-96 | For a readable file, the first of its lines that starts with the tag decides: the identifier is that line with every tag deleted and the version stripped. A readable file without such a line gets the standard identifier, and so does a file that is missing or cannot be read. |
| Watcher.WatchEntries | plugins/Unity/Launcher/xdgwatcher.cpp:45-50 | The watched files afterwards are those watched before plus exactly the listed entries with suffix `desktop`. |
| Watcher.WatchRoots | plugins/Unity/Launcher/xdgwatcher.cpp:35-51 | Each root that exists is added to the watched directories. Its desktop files are added to the watched files. Roots that do not exist add nothing. |
| Watcher.Construct | plugins/Unity/Launcher/xdgwatcher.cpp:34-51 | The watched directories are exactly the roots that exist. The watched files are exactly the desktop files listed directly in them. |
| Watcher.NewDesktopPaths | plugins/Unity/Launcher/xdgwatcher.cpp:102-103 | A path is found new exactly when it is a listed desktop file missing from the snapshot taken before the loop. |
| Watcher.Announce | plugins/Unity/Launcher/xdgwatcher.cpp:106-107 | There is one `appAdded` per path, in order, each carrying that path's identifier. |
| Watcher.ScanEntries | plugins/Unity/Launcher/xdgwatcher.cpp:102-109 | The loop adds exactly the new desktop files to the watched files. It appends their `appAdded` events in listing order. It leaves the watched directories alone. |
| Watcher.DirectoryChanged | plugins/Unity/Launcher/xdgwatcher.cpp:99-110 | Afterwards every listed desktop file is watched and the watched directories are unchanged. The events are one `appAdded` per listed desktop file that was not watched before, in listing order. |
| Watcher.FileChanged | plugins/Unity/Launcher/xdgwatcher.cpp:112-125 | There is exactly one event, and the watch set is unchanged. The event is `appInfoChanged` with the current identifier when the path exists, and `appRemoved` with the standard identifier when it does not. |
| Reconcile.ConstructConsistent | plugins/Unity/Launcher/xdgwatcher.cpp:34-51 | After construction the watched directories are roots, and each watched file is a desktop file directly inside a watched directory. |
| Reconcile.DirectoryChangedConsistent | plugins/Unity/Launcher/xdgwatcher.cpp:99-110 | A directory notification for a watched directory keeps that invariant. |
| Reconcile.NothingNewWhenAllWatched | plugins/Unity/Launcher/xdgwatcher.cpp:103 | When every listed desktop file is in the snapshot, nothing is found new. |
| Reconcile.ConstructThenDirectoryChangedQuiet | plugins/Unity/Launcher/xdgwatcher.cpp:101-107 | On an unchanged disk, a notification for a root right after construction emits nothing and changes nothing. |
| Reconcile.DirectoryChangedIdempotent | plugins/Unity/Launcher/xdgwatcher.cpp:101-107 | Handling the same directory notification twice on the same disk: the second emits nothing and leaves the watch set as the first left it. |
| Reconcile.RemovalIgnoresContent | plugins/Unity/Launcher/xdgwatcher.cpp:118-124 | When the path is gone, the event depends on the path alone, not on what the disk held. |
| Reconcile.ChildPathInjective | plugins/Unity/Launcher/xdgwatcher.cpp:103 | Different entries of one directory have different absolute paths. |
| Reconcile.NewDesktopPathsDistinct | plugins/Unity/Launcher/xdgwatcher.cpp:102-107 | On a listing without repeated names, no file is announced twice in one notification. |
| Scenarios.NewDesktopPathsAppend | plugins/Unity/Launcher/xdgwatcher.cpp:102-103 | The new files of a listing are those of its first part followed by those of the rest. |
| Scenarios.ConstructWatchesEntry | plugins/Unity/Launcher/xdgwatcher.cpp:42-50 | The constructor watches an entry's path exactly when the entry's directory is a root, the entry is listed there, and the entry is a desktop file. |
| Scenarios.ConstructWatchesListing | plugins/Unity/Launcher/xdgwatcher.cpp:35-50 | Right after construction, every desktop file an existing root lists is watched. |
| Scenarios.KeptEntriesQuiet | plugins/Unity/Launcher/xdgwatcher.cpp:102-103 | Entries a directory listed before bring no new file when listed again, as long as every desktop file it listed then is watched. |
| Scenarios.NewEntryFound | plugins/Unity/Launcher/xdgwatcher.cpp:103-104 | A listed desktop file whose path is not watched is found new. |
| Scenarios.QuietAround | plugins/Unity/Launcher/xdgwatcher.cpp:102-103 | Parts of a listing that bring no new file, around a middle part, leave exactly the new files of the middle part. |
| Scenarios.OneNewEntry | plugins/Unity/Launcher/xdgwatcher.cpp:102-104 | Take a directory whose desktop files were all watched, and whose listing now holds one desktop file with an unwatched path, anywhere among entries it held before. Its notification finds only that file new. |
| Scenarios.CreateScenario | plugins/Unity/Launcher/xdgwatcher.cpp:99-110 | From any watch set that holds every desktop file the directory listed before and not the new path: creating a desktop file there, at any place in the listing, gives exactly one `appAdded` with the file's identifier, and the file becomes watched. |
| Scenarios.CreateAfterConstruct | plugins/Unity/Launcher/xdgwatcher.cpp:99-110 | Right after construction, creating a desktop file in an existing root, at any place in the listing, gives exactly one `appAdded` with the file's identifier, and the file becomes watched. |
| Scenarios.DesktopEntryIsDesktopFile | plugins/Unity/Launcher/xdgwatcher.cpp:47 | An entry named `<base>.desktop` of a clean directory passes the `suffix() == "desktop"` test, whatever `base` holds besides `/`. |
| ScenarioExamples.CreateExample | plugins/Unity/Launcher/xdgwatcher.cpp:99-110 | Creating `x.desktop`, without a tagged line, in the empty root `/apps` gives exactly `appAdded("x")`. |
| Scenarios.CreateThenModifyScenario | plugins/Unity/Launcher/xdgwatcher.cpp:112-117 | From the same watch sets as `Scenarios.CreateScenario`, a later modification of the created file gives `appInfoChanged`, not `appAdded`, and the file stays watched. |
| Scenarios.DeleteScenario | plugins/Unity/Launcher/xdgwatcher.cpp:118-124 | Deleting a file gives exactly one `appRemoved`, with the identifier from its path, even when the file named its application with the vendor tag. |
| ScenarioExamples.VendorRemovalExample | plugins/Unity/Launcher/xdgwatcher.cpp:118-124 | A file `/apps/x.desktop` whose tagged line names `com.foo_1` has the identifier `com.foo` while it exists, but its deletion gives `appRemoved("x")`: the two identifiers differ. |
| Scenarios.RenameScenario | plugins/Unity/Launcher/xdgwatcher.cpp:119-124 | From any watch set that holds every desktop file the directory listed before and not the new path (right after construction, for instance): renaming a desktop file, from any place in the listing to any place, gives one `appRemoved` for the old path and one `appAdded` for the new path. This holds in either handler order, and the two events are never merged. |
| ScenarioExamples.RenameExample | plugins/Unity/Launcher/xdgwatcher.cpp:99-124 | Renaming `x.desktop` to `y.desktop` in `/apps`, with the file notification handled first, gives `appRemoved("x")` then `appAdded("y")`. |
| AppIdExamples.StripVersionExample | plugins/Unity/Launcher/xdgwatcher.cpp:55-59 | `com.foo.bar_1.2.3` becomes `com.foo.bar`. |
| AppIdExamples.StripLastPartExample | plugins/Unity/Launcher/xdgwatcher.cpp:55-59 | `com_foo_bar` becomes `com_foo`: only the last part goes. |
| AppIdExamples.StripWithoutVersionExample | plugins/Unity/Launcher/xdgwatcher.cpp:55-59 | `com.foo.bar`, which has no `_`, becomes the empty identifier. |
| AppIdExamples.RootFileExample | plugins/Unity/Launcher/xdgwatcher.cpp:66-67 | `/apps/org.foo.Bar.desktop` under the root `/apps` gets `org.foo.Bar`. |
| AppIdExamples.PlainRootFileExample | plugins/Unity/Launcher/xdgwatcher.cpp:66-67 | `/apps/x.desktop` under the root `/apps` gets `x`. |
| AppIdExamples.SubDirectoryExample | plugins/Unity/Launcher/xdgwatcher.cpp:69-74 | `/apps/sub/x.desktop` under the root `/apps` gets `-sub-x`. |
| AppIdExamples.DottedSubDirectoryExample | plugins/Unity/Launcher/xdgwatcher.cpp:69-74 | `/apps/sub/org.foo.Web.desktop` under the root `/apps` gets `-sub-org.foo.Web`: only `.desktop` goes, the other dots stay. |
| AppIdExamples.FirstRootWinsExample | plugins/Unity/Launcher/xdgwatcher.cpp:65-74 | With roots `/srv` then `/srv/apps`, `/srv/apps/x.desktop` gets `-apps-x`: the first occurring root wins over the later, exact one. |
| AppIdExamples.SubstringRootExample | plugins/Unity/Launcher/xdgwatcher.cpp:69-74 | With the root `/opt/app`, `/opt/apps/x.desktop` gets `s-x`: the root matches inside `/opt/apps`. |
| AppIdExamples.RepeatedRootExample | plugins/Unity/Launcher/xdgwatcher.cpp:69-74 | With the root `/a`, `/a/ab/x.desktop` gets `b-x`: the root is deleted wherever it occurs, the second time inside `/ab`. |
| AppIdExamples.InnerExtension | plugins/Unity/Launcher/xdgwatcher.cpp:70-74 | A path `<root>/<sub>/<x>.desktop<y>.desktop` whose rest does not hold the root again is encoded as `-<sub>-<x><y>`: both extensions go, when the names hold no `/` or `.`. |
| AppIdExamples.InnerExtensionUnderFirstRoot | plugins/Unity/Launcher/xdgwatcher.cpp:63-78 | Below the first root, such a file is known as `-<sub>-<x><y>`, when the rest lacks some character of the root. |
| AppIdExamples.InnerExtensionExample | plugins/Unity/Launcher/xdgwatcher.cpp:69-74 | `/apps/sub/x.desktopy.desktop` under the root `/apps` gets `-sub-xy`: the inner `.desktop` is deleted too. |
| AppIdExamples.VendorTagExample | plugins/Unity/Launcher/xdgwatcher.cpp:85-89 | The first tagged line decides, with its version stripped; a later tagged line is ignored. |
| AppIdExamples.TaggedLineExample | plugins/Unity/Launcher/xdgwatcher.cpp:87-89 | The tagged line `X-Ubuntu-Application-ID=com.foo_1` names `com.foo`. |
| AppIdExamples.RepeatedTagExample | plugins/Unity/Launcher/xdgwatcher.cpp:87 | A tag repeated inside the tagged line is deleted too: `X-Ubuntu-Application-ID=aX-Ubuntu-Application-ID=b_1` gives `ab`. |

## Left out

- Signal and slot wiring (lines 31-32) and `Q_EMIT`: each handler returns the events it
  emits as a sequence instead.
- `QStandardPaths::standardLocations`: the roots are a parameter. The constructor and
  `toStandardAppId` are given the same list, although the code asks for it anew each
  time.
- `QFileSystemWatcher` itself is not modelled. This covers how notifications are
  delivered and coalesced, and the watcher's own dropping of a deleted file from its
  list. `Watcher.FileChanged` therefore leaves the watch set as it was, as the code
  does. In the model a deleted path thus stays watched, and a file deleted and then
  created again under the same name, or renamed back to a deleted name, gets no second
  `appAdded`, while the program announces it. The scenarios in `Scenarios` require the
  new path to be unwatched, which rules this case out.
- `QFile` opening and `QTextStream` decoding are not modelled. A file's lines are
  given. A file that cannot be opened reads as no lines. Line splitting and text
  encodings are not modelled.
- The `QDir::Files` filter (no sub-directories, no hidden files) is assumed to have been
  applied by the listing. `Watcher.WellFormed`, which the lemmas about construction
  assume, requires every listed entry to be a file of the disk. The handlers themselves
  accept any disk: on a disk that lists an entry it has no file for, a directory
  notification announces the entry while a file notification for it reports a removal.
- Relative paths, symbolic links and `..` are not modelled. `Paths.DirOf` gives the
  empty directory to a path without `/`. The lemmas about listings assume clean
  absolute directory paths (`Watcher.WellFormed`).
- Characters are compared one by one, case-sensitively, as `QString` compares them.
  There is no normalisation.
- Closing the file, `QObject` parenting and ownership are not modelled.
- Strings.RemoveAll: its own contract only bounds the length. What it computes is stated
  through `Strings.RemoveAllAbsent`, `Strings.RemoveLeading`, `Strings.RemoveFirst`,
  `Strings.RemoveAllSkips`
  and `Strings.RemoveAllKeepsOut`. There is no general description of the positions it
  deletes.
- AppId.EncodeUnderRoot: its own contract states only that the result holds no `/`. Its
  value is stated for the paths `<root>/<sub>/<base>.desktop` whose rest does not hold
  the root again, by `AppId.SubPathLeadingDash` (the leading `-`) and, when neither
  `sub` nor `base` holds `.desktop`, by `AppId.SubPathAppId` (the whole identifier).
  Three kinds of path are covered by worked examples only:
  - the matched root is not followed by `/`, because it matches inside a longer
    directory name: `AppIdExamples.SubstringRootExample`;
  - the root occurs again in the rest of the path: `AppIdExamples.RepeatedRootExample`;
  - `.desktop` occurs inside a name: `AppIdExamples.InnerExtensionExample`, generalised
    by `AppIdExamples.InnerExtension` to `<x>.desktop<y>.desktop` for any `x` and `y`
    without `/` or `.`.

=== FILE: appid.dfy ===
/** Application identifiers for desktop-entry files. A file either names its application
    itself, on a line that starts with the vendor tag `X-Ubuntu-Application-ID=` (the
    "Ubuntu style" identifier, with a trailing `_version` part stripped), or it gets an
    identifier derived from where it lies below one of the application directories. */
module AppId {
  import opened Strings
  import opened Paths

  /** The vendor tag a desktop entry names its application with. */
  const IdTag := "X-Ubuntu-Application-ID="

  /** The extension of desktop-entry files. */
  const DesktopExtension := ".desktop"

  /** `stripAppIdVersion`: split on `_`, drop the last part, join again with `_`. The
      result is the text before the last `_`, and empty when there is no `_` at all. */
  function StripAppIdVersion(raw: string): (id: string)
    ensures '_' !in raw ==> id == ""
    ensures '_' in raw ==>
              |id| < |raw| && IsPrefix(id, raw) && raw[|id|] == '_' && '_' !in raw[|id| + 1..]
  {
    var parts := Split(raw, '_');
    var id := Join(parts[..|parts| - 1], '_');
    JoinSplit(raw, '_');
    if |parts| >= 2 then
      JoinLast(parts, '_');
      assert raw == id + "_" + parts[|parts| - 1];
      assert raw[..|id|] == id && raw[|id| + 1..] == parts[|parts| - 1];
      id
    else
      id
  }

  /** Stripping the version of a text whose last `_` is at `k` keeps the text before `k`. */
  lemma StripAppIdVersionAt(raw: string, k: int)
    requires 0 <= k < |raw| && raw[k] == '_' && '_' !in raw[k + 1..]
    ensures StripAppIdVersion(raw) == raw[..k]
  {
  }

  /** The identifier `toStandardAppId` builds for a file found below `root`: its absolute
      path with every occurrence of `root` deleted, then every `/` turned into `-`, then
      every `.desktop` deleted. */
  function EncodeUnderRoot(file: string, root: string): (id: string)
    ensures '/' !in id
  {
    var slashless := ReplaceChar(RemoveAll(file, root), '/', '-');
    assert '/' !in slashless;
    RemoveAllKeepsOut(slashless, DesktopExtension, '/');
    RemoveAll(slashless, DesktopExtension)
  }

  /** Root `i` is the first of `roots` that occurs in the directory `dir`. */
  ghost predicate FirstContainingRoot(roots: seq<string>, dir: string, i: int) {
    && 0 <= i < |roots|
    && Contains(dir, roots[i])
    && forall j :: 0 <= j < i ==> !Contains(dir, roots[j])
  }

  /** Past a first root that does not occur, the search goes on in the other roots. */
  lemma FirstContainingRootTail(roots: seq<string>, dir: string)
    requires |roots| > 0 && !Contains(dir, roots[0])
    ensures forall i :: FirstContainingRoot(roots, dir, i) ==> FirstContainingRoot(roots[1..], dir, i - 1)
  {
    forall i | FirstContainingRoot(roots, dir, i)
      ensures FirstContainingRoot(roots[1..], dir, i - 1)
    {
    }
  }

  /** A first root that occurs is the first containing root, and the only one. */
  lemma FirstContainingRootHead(roots: seq<string>, dir: string)
    requires |roots| > 0 && Contains(dir, roots[0])
    ensures forall i :: FirstContainingRoot(roots, dir, i) <==> i == 0
  {
  }

  /** `toStandardAppId`: the roots are tried in order and the first one that occurs in the
      file's directory decides. If that root is the directory itself the identifier is the
      complete base name; otherwise it is the path encoded against that root. When no root
      occurs in the directory it is the complete base name as well. */
  function StandardAppId(roots: seq<string>, file: string): (id: string)
    ensures '/' !in id
    ensures (forall i :: 0 <= i < |roots| ==> !Contains(DirOf(file), roots[i])) ==>
              id == CompleteBaseName(file)
    ensures forall i :: FirstContainingRoot(roots, DirOf(file), i) ==>
              id == if roots[i] == DirOf(file) then CompleteBaseName(file)
                    else EncodeUnderRoot(file, roots[i])
  {
    var dir := DirOf(file);
    if |roots| == 0 then CompleteBaseName(file)
    else if dir == roots[0] then
      ContainsItself(dir);
      FirstContainingRootHead(roots, dir);
      CompleteBaseName(file)
    else if Contains(dir, roots[0]) then
      FirstContainingRootHead(roots, dir);
      EncodeUnderRoot(file, roots[0])
    else
      FirstContainingRootTail(roots, dir);
      StandardAppId(roots[1..], file)
  }

  /** Line `i` is the first of `lines` that starts with the vendor tag. */
  ghost predicate FirstTaggedLine(lines: seq<string>, i: int) {
    && 0 <= i < |lines|
    && IsPrefix(IdTag, lines[i])
    && forall j :: 0 <= j < i ==> !IsPrefix(IdTag, lines[j])
  }

  /** Past a first line that is not tagged, the scan goes on in the other lines. */
  lemma FirstTaggedLineTail(lines: seq<string>)
    requires |lines| > 0 && !IsPrefix(IdTag, lines[0])
    ensures forall i :: FirstTaggedLine(lines, i) ==> FirstTaggedLine(lines[1..], i - 1)
  {
    forall i | FirstTaggedLine(lines, i)
      ensures FirstTaggedLine(lines[1..], i - 1)
    {
    }
  }

  /** `toAppId` on the lines read from `file`: the first line that starts with the vendor
      tag decides, with every occurrence of the tag deleted from it and the version
      stripped; later lines are not looked at. Without such a line the identifier is the
      standard one. */
  function ResolveAppId(roots: seq<string>, file: string, lines: seq<string>): (id: string)
    ensures (forall i :: 0 <= i < |lines| ==> !IsPrefix(IdTag, lines[i])) ==>
              id == StandardAppId(roots, file)
    ensures forall i :: FirstTaggedLine(lines, i) ==>
              id == StripAppIdVersion(RemoveAll(lines[i], IdTag))
  {
    if |lines| == 0 then StandardAppId(roots, file)
    else if IsPrefix(IdTag, lines[0]) then StripAppIdVersion(RemoveAll(lines[0], IdTag))
    else
      FirstTaggedLineTail(lines);
      ResolveAppId(roots, file, lines[1..])
  }

  /** Turning `/` into `-` in `/<sub>/<base>.desktop` touches only the two separators
      and those inside `sub`. */
  lemma ReplaceSlashesInSubPath(sub: string, base: string)
    requires '/' !in base
    ensures ReplaceChar("/" + sub + "/" + base + DesktopExtension, '/', '-')
            == "-" + ReplaceChar(sub, '/', '-') + "-" + base + DesktopExtension
  {
    var s := "/" + sub + "/" + base + DesktopExtension;
    var r := ReplaceChar(s, '/', '-');
    var e := "-" + ReplaceChar(sub, '/', '-') + "-" + base + DesktopExtension;
    assert |r| == |e|;
    forall k | 0 <= k < |r|
      ensures r[k] == e[k]
    {
      if k == 0 || k == |sub| + 1 {
      } else if k <= |sub| {
        assert s[k] == sub[k - 1];
      } else {
        assert s[k] == (base + DesktopExtension)[k - |sub| - 2];
      }
    }
  }

  /** A file below a sub-path of a root does not lie in the root itself. */
  lemma SubPathDir(root: string, rest: string, sub: string, base: string)
    requires rest == "/" + sub + "/" + base + DesktopExtension
    requires '/' !in base
    ensures |DirOf(root + rest)| > |root|
  {
    var p := root + rest;
    var j := |root| + 1 + |sub|;
    assert p[j] == '/';
    assert p[j + 1..] == base + DesktopExtension;
    LastIndexOfAt(p, '/', j);
  }

  /** The extension starts with its only `.`, and holds neither `/` nor `-`. */
  lemma ExtensionShape()
    ensures DesktopExtension != [] && DesktopExtension[0] !in DesktopExtension[1..]
    ensures '/' !in DesktopExtension && '-' !in DesktopExtension
  {
  }

  /** The encoded identifier of `<root>/<sub>/<base>.desktop`, once the root is gone,
      when `sub` and `base` hold no `.desktop` of their own. */
  lemma EncodeSubPath(root: string, rest: string, sub: string, base: string)
    requires root != []
    requires rest == "/" + sub + "/" + base + DesktopExtension
    requires '/' !in base
    requires !Contains(sub, DesktopExtension) && !Contains(base, DesktopExtension)
    requires !Contains(rest, root)
    ensures EncodeUnderRoot(root + rest, root) == "-" + ReplaceChar(sub, '/', '-') + "-" + base
  {
    var dashed := ReplaceChar(sub, '/', '-');
    RemoveLeading(root, rest);
    ReplaceSlashesInSubPath(sub, base);
    ExtensionShape();
    ReplaceCharNotContained(sub, '/', '-', DesktopExtension);
    DashJoinedLacksExtension(dashed, base);
    RemoveTrailing("-" + dashed + "-" + base, DesktopExtension);
  }

  /** Joining with `-` two names that hold no `.desktop` gives none. */
  lemma DashJoinedLacksExtension(dashed: string, base: string)
    requires !Contains(dashed, DesktopExtension) && !Contains(base, DesktopExtension)
    ensures !Contains("-" + dashed + "-" + base, DesktopExtension)
  {
    ExtensionShape();
    assert "-" + dashed == [] + ['-'] + dashed;
    AroundCharNotContained([], '-', dashed, DesktopExtension);
    assert "-" + dashed + "-" + base == ("-" + dashed) + ['-'] + base;
    AroundCharNotContained("-" + dashed, '-', base, DesktopExtension);
  }

  /** The identifier of a desktop file one or more directories below a root, the file
      `<root><rest>` with `rest` of the form `/<sub>/<base>.desktop`, is `-<sub>-<base>`
      with each `/` of `sub` turned into `-`: the freedesktop desktop file ID
      `<sub>-<base>.desktop` with a leading `-` and without the extension. This holds when
      that root is the first one that occurs in the file's directory, `rest` holds no
      second occurrence of the root, and neither `sub` nor `base` holds `.desktop`. */
  lemma SubPathAppId(roots: seq<string>, i: int, rest: string, sub: string, base: string)
    requires 0 <= i < |roots| && roots[i] != []
    requires rest == "/" + sub + "/" + base + DesktopExtension
    requires '/' !in base
    requires !Contains(sub, DesktopExtension) && !Contains(base, DesktopExtension)
    requires FirstContainingRoot(roots, DirOf(roots[i] + rest), i)
    requires !Contains(rest, roots[i])
    ensures StandardAppId(roots, roots[i] + rest) == "-" + ReplaceChar(sub, '/', '-') + "-" + base
  {
    SubPathDir(roots[i], rest, sub, base);
    assert DirOf(roots[i] + rest) != roots[i];
    EncodeSubPath(roots[i], rest, sub, base);
  }

  /** Deleting `.desktop` keeps a leading `-`. */
  lemma DashKept(t: string)
    ensures var r := RemoveAll("-" + t, DesktopExtension);
            |r| > 0 && r[0] == '-'
  {
    ExtensionShape();
    RemoveAllSkips("-", t, DesktopExtension);
  }

  /** A path that is a root followed by a rest starting with `/`, with no second
      occurrence of the root, is encoded with a leading `-`. */
  lemma EncodeLeadingDash(root: string, rest: string)
    requires root != [] && |rest| > 0 && rest[0] == '/'
    requires !Contains(rest, root)
    ensures var id := EncodeUnderRoot(root + rest, root);
            |id| > 0 && id[0] == '-'
  {
    RemoveLeading(root, rest);
    var r := ReplaceChar(rest, '/', '-');
    assert r[0] == '-';
    assert r == "-" + r[1..];
    DashKept(r[1..]);
  }

  /** A desktop file one or more directories below the first root that occurs in its
      directory, with no second occurrence of that root after it, gets an identifier
      that starts with `-`: the separator after the root is kept. */
  lemma SubPathLeadingDash(roots: seq<string>, i: int, rest: string, sub: string, base: string)
    requires 0 <= i < |roots| && roots[i] != []
    requires rest == "/" + sub + "/" + base + DesktopExtension
    requires '/' !in base
    requires FirstContainingRoot(roots, DirOf(roots[i] + rest), i)
    requires !Contains(rest, roots[i])
    ensures var id := StandardAppId(roots, roots[i] + rest);
            |id| > 0 && id[0] == '-'
  {
    SubPathDir(roots[i], rest, sub, base);
    assert DirOf(roots[i] + rest) != roots[i];
    EncodeLeadingDash(roots[i], rest);
  }

  /** A desktop file directly in the first root is known by its name without the
      extension. */
  lemma DirectlyInFirstRoot(roots: seq<string>, base: string, file: string)
    requires |roots| > 0 && CleanDir(roots[0]) && roots[0] != "/"
    requires '/' !in base
    requires file == roots[0] + "/" + base + DesktopExtension
    ensures StandardAppId(roots, file) == base
  {
    var name := base + DesktopExtension;
    assert file == ChildPath(roots[0], name);
    ChildPathParts(roots[0], name);
    var k := |base|;
    assert name[k] == '.' && name[k + 1..] == DesktopExtension[1..];
    OneDotInExtension();
    LastIndexOfAt(name, '.', k);
    assert roots[0][0..] == roots[0];
  }

  /** The extension holds no `.` after its first character. */
  lemma OneDotInExtension()
    ensures '.' !in DesktopExtension[1..]
  {
  }

  /** A desktop file one directory level or more below the first root,
      `<root>/<sub>/<base>.desktop`, gets the identifier `SubPathAppId` gives. */
  lemma SubPathOfFirstRoot(roots: seq<string>, rest: string, sub: string, base: string)
    requires |roots| > 0 && roots[0] != []
    requires rest == "/" + sub + "/" + base + DesktopExtension
    requires CleanDir(roots[0] + "/" + sub)
    requires '/' !in base
    requires !Contains(sub, DesktopExtension) && !Contains(base, DesktopExtension)
    requires !Contains(rest, roots[0])
    ensures StandardAppId(roots, roots[0] + rest) == "-" + ReplaceChar(sub, '/', '-') + "-" + base
  {
    var dir := roots[0] + "/" + sub;
    assert |dir| >= 2;
    assert ChildPath(dir, base + DesktopExtension) == roots[0] + rest;
    ChildPathParts(dir, base + DesktopExtension);
    assert dir[0..] == dir;
    assert FirstContainingRoot(roots, dir, 0);
    SubPathAppId(roots, 0, rest, sub, base);
  }

  /** A file in `<root><tail>`, with the root first in the list and `tail` not empty, is
      encoded against that root. */
  lemma EncodedUnderFirstRoot(roots: seq<string>, tail: string, name: string, file: string)
    requires |roots| > 0 && roots[0] != [] && tail != []
    requires CleanDir(roots[0] + tail) && '/' !in name
    requires file == roots[0] + tail + "/" + name
    ensures StandardAppId(roots, file) == EncodeUnderRoot(file, roots[0])
  {
    var dir := roots[0] + tail;
    assert |dir| >= 2;
    assert ChildPath(dir, name) == file;
    ChildPathParts(dir, name);
    assert dir[0..] == dir;
    assert FirstContainingRoot(roots, dir, 0);
  }
}

=== FILE: examples_appid.dfy ===
/** Worked identifiers: plain cases, and the places where the watcher departs from the
    freedesktop desktop file ID (a root is matched as a substring rather than as a
    leading directory, the first matching root wins, the `/` after the root stays as a
    leading `-`, every occurrence of the root is deleted) or from reading the value of
    a `key=value` line (every occurrence of the tag is deleted). */
module AppIdExamples {
  import opened Strings
  import opened Paths
  import opened AppId

  /** The version after the last `_` goes. */
  lemma StripVersionExample()
    ensures StripAppIdVersion("com.foo.bar_1.2.3") == "com.foo.bar"
  {
    StripAppIdVersionAt("com.foo.bar_1.2.3", 11);
  }

  /** Only the part after the last `_` goes. */
  lemma StripLastPartExample()
    ensures StripAppIdVersion("com_foo_bar") == "com_foo"
  {
    StripAppIdVersionAt("com_foo_bar", 7);
  }

  /** With no `_` at all nothing is left. */
  lemma StripWithoutVersionExample()
    ensures StripAppIdVersion("com.foo.bar") == ""
  {
  }

  /** An application directory. */
  const Apps := "/apps"

  /** `/apps/x.desktop` is known as `x`. */
  lemma PlainRootFileExample(file: string)
    requires file == Apps + "/x.desktop"
    ensures StandardAppId([Apps], file) == "x"
  {
    assert file == Apps + "/" + "x" + DesktopExtension;
    DirectlyInFirstRoot([Apps], "x", file);
  }

  /** A file directly in a root is known by its complete base name. */
  lemma RootFileExample(file: string)
    requires file == Apps + "/org.foo.Bar.desktop"
    ensures StandardAppId([Apps], file) == "org.foo.Bar"
  {
    assert file == Apps + "/" + "org.foo.Bar" + DesktopExtension;
    DirectlyInFirstRoot([Apps], "org.foo.Bar", file);
  }

  /** A file in a sub-directory of a root is known by its encoded path, which keeps the
      `-` left by the separator after the root. */
  lemma SubDirectoryExample(file: string)
    requires file == Apps + "/sub/x.desktop"
    ensures StandardAppId([Apps], file) == "-sub-x"
  {
    var rest := "/" + "sub" + "/" + "x" + DesktopExtension;
    assert file == Apps + rest;
    MissingCharNotContained(rest, Apps, 'a');
    ShorterNotContained("sub", DesktopExtension);
    ShorterNotContained("x", DesktopExtension);
    SubPathOfFirstRoot([Apps], rest, "sub", "x");
    ReplaceAbsentChar("sub", '/', '-');
    DashJoin("sub", "x", "-sub-x");
  }

  /** A reverse-DNS file name in a sub-directory keeps its dots: only `.desktop` goes. */
  lemma DottedSubDirectoryExample(file: string)
    requires file == Apps + "/sub/org.foo.Web.desktop"
    ensures StandardAppId([Apps], file) == "-sub-org.foo.Web"
  {
    var rest := "/" + "sub" + "/" + "org.foo.Web" + DesktopExtension;
    AppsDottedParts(file, rest);
    ShorterNotContained("sub", DesktopExtension);
    MissingCharNotContained("org.foo.Web", DesktopExtension, 'k');
    SubPathOfFirstRoot([Apps], rest, "sub", "org.foo.Web");
    ReplaceAbsentChar("sub", '/', '-');
    DashJoin("sub", "org.foo.Web", "-sub-org.foo.Web");
  }

  /** `/apps/sub/org.foo.Web.desktop` read as the root `/apps` followed by a rest that
      does not hold it again. */
  lemma AppsDottedParts(file: string, rest: string)
    requires file == Apps + "/sub/org.foo.Web.desktop"
    requires rest == "/" + "sub" + "/" + "org.foo.Web" + DesktopExtension
    ensures file == Apps + rest
    ensures !Contains(rest, Apps)
  {
    MissingCharNotContained(rest, Apps, 'a');
  }

  /** Roots are tried in order and the first that occurs in the directory wins, even when
      a later root is the directory itself. */
  lemma FirstRootWinsExample(file: string)
    requires file == "/srv/apps/x.desktop"
    ensures StandardAppId(["/srv", "/srv/apps"], file) == "-apps-x"
  {
    var rest := "/" + "apps" + "/" + "x" + DesktopExtension;
    SrvAppsParts(file, rest);
    ShorterNotContained("apps", DesktopExtension);
    ShorterNotContained("x", DesktopExtension);
    SubPathOfFirstRoot(["/srv", "/srv/apps"], rest, "apps", "x");
    ReplaceAbsentChar("apps", '/', '-');
    DashJoin("apps", "x", "-apps-x");
  }

  /** `/srv/apps/x.desktop` read as the root `/srv` followed by a rest that does not
      hold it again. */
  lemma SrvAppsParts(file: string, rest: string)
    requires file == "/srv/apps/x.desktop"
    requires rest == "/" + "apps" + "/" + "x" + DesktopExtension
    ensures file == "/srv" + rest
    ensures !Contains(rest, "/srv")
  {
    MissingCharNotContained(rest, "/srv", 'r');
  }

  /** A root is matched anywhere in the directory, not as a leading directory: `/opt/app`
      counts as a root of `/opt/apps`, and what is left of the path after deleting it is
      used as it is. */
  lemma SubstringRootExample(file: string)
    requires file == "/opt/apps/x.desktop"
    ensures StandardAppId(["/opt/app"], file) == "s-x"
  {
    OptAppsParts(file);
    EncodedUnderFirstRoot(["/opt/app"], "s", "x.desktop", file);
    LeftAfterRoot("/opt/app", "s/x.desktop");
  }

  /** `/opt/apps/x.desktop` read as the root `/opt/app` followed by the rest. */
  lemma OptAppsParts(file: string)
    requires file == "/opt/apps/x.desktop"
    ensures file == "/opt/app" + "s" + "/" + "x.desktop"
    ensures file == "/opt/app" + "s/x.desktop"
  {
  }

  /** The encoding behind `SubstringRootExample`, for any root holding an `a`. */
  lemma LeftAfterRoot(root: string, rest: string)
    requires 'a' in root
    requires rest == "s/x.desktop"
    ensures EncodeUnderRoot(root + rest, root) == "s-x"
  {
    NoAInRest(rest);
    MissingCharNotContained(rest, root, 'a');
    RemoveLeading(root, rest);
    SlashesReplaced(rest, "s-x");
    ExtensionDeleted("s-x");
  }

  /** `s/x.desktop` and `b/x.desktop` hold no `a`. */
  lemma NoAInRest(rest: string)
    requires rest == "s/x.desktop" || rest == "b/x.desktop"
    ensures 'a' !in rest
  {
  }

  /** Turning the `/` of `s/x.desktop` or `b/x.desktop` into `-`. */
  lemma SlashesReplaced(rest: string, id: string)
    requires (rest == "s/x.desktop" && id == "s-x") || (rest == "b/x.desktop" && id == "b-x")
    ensures ReplaceChar(rest, '/', '-') == id + DesktopExtension
  {
  }

  /** Deleting the extension from `<id>.desktop` when `id` holds no `.`. */
  lemma ExtensionDeleted(id: string)
    requires '.' !in id
    ensures RemoveAll(id + DesktopExtension, DesktopExtension) == id
  {
    RemoveAllSkips(id, DesktopExtension, DesktopExtension);
    assert RemoveAll(DesktopExtension, DesktopExtension) == "" by {
      assert DesktopExtension[..|DesktopExtension|] == DesktopExtension;
      assert DesktopExtension[|DesktopExtension|..] == "";
    }
  }

  /** A root that occurs again right after itself is deleted twice: under the root `/a`,
      the directory `/a/ab` loses both occurrences, and what is left is used as it is. */
  lemma RepeatedRootExample(file: string)
    requires file == "/a/ab/x.desktop"
    ensures StandardAppId(["/a"], file) == "b-x"
  {
    RepeatedRootParts(file, "/a", "b/x.desktop");
    EncodedUnderFirstRoot(["/a"], "/ab", "x.desktop", file);
    RootTwice("/a", "b/x.desktop");
  }

  /** `/a/ab/x.desktop` read as the root `/a`, twice, followed by the rest. */
  lemma RepeatedRootParts(file: string, root: string, rest: string)
    requires file == "/a/ab/x.desktop" && root == "/a" && rest == "b/x.desktop"
    ensures file == root + "/ab" + "/" + "x.desktop"
    ensures file == root + (root + rest)
    ensures CleanDir(root + "/ab") && '/' !in "x.desktop"
  {
  }

  /** The encoding behind `RepeatedRootExample`, for any root holding an `a`. */
  lemma RootTwice(root: string, rest: string)
    requires 'a' in root
    requires rest == "b/x.desktop"
    ensures EncodeUnderRoot(root + (root + rest), root) == "b-x"
  {
    RemoveFirst(root, root + rest);
    NoAInRest(rest);
    MissingCharNotContained(rest, root, 'a');
    RemoveLeading(root, rest);
    SlashesReplaced(rest, "b-x");
    ExtensionDeleted("b-x");
  }

  /** `.desktop` is deleted wherever it occurs, not only at the end: `x.desktopy.desktop`
      in a sub-directory gives `-sub-xy`. */
  lemma InnerExtensionExample(file: string)
    requires file == Apps + "/sub/x.desktopy.desktop"
    ensures StandardAppId([Apps], file) == "-sub-xy"
  {
    InnerExtensionParts(file, "sub", "x", "y");
    InnerExtensionUnderFirstRoot([Apps], "sub", "x", "y", file, 'a');
    DashJoin("sub", "xy", "-sub-xy");
  }

  /** `/apps/sub/x.desktopy.desktop` read as the root `/apps`, the sub-directory and the
      two pieces around the inner extension. */
  lemma InnerExtensionParts(file: string, sub: string, x: string, y: string)
    requires file == Apps + "/sub/x.desktopy.desktop"
    requires sub == "sub" && x == "x" && y == "y"
    ensures file == Apps + ("/" + sub + "/" + (x + DesktopExtension + y + DesktopExtension))
    ensures CleanDir(Apps + "/" + sub)
    ensures 'a' in Apps && 'a' !in "/" + sub + "/" + (x + DesktopExtension + y + DesktopExtension)
    ensures '/' !in sub && '.' !in sub && '/' !in x && '.' !in x && '/' !in y && '.' !in y
  {
  }

  /** The file `<root>/<sub>/<x>.desktop<y>.desktop` below the first root, when the rest
      lacks the character `c` of the root, is known as `-<sub>-<x><y>`. */
  lemma InnerExtensionUnderFirstRoot(roots: seq<string>, sub: string, x: string, y: string, file: string, c: char)
    requires |roots| > 0 && CleanDir(roots[0] + "/" + sub)
    requires '/' !in sub && '.' !in sub && '/' !in x && '.' !in x && '/' !in y && '.' !in y
    requires file == roots[0] + ("/" + sub + "/" + (x + DesktopExtension + y + DesktopExtension))
    requires c in roots[0] && c !in "/" + sub + "/" + (x + DesktopExtension + y + DesktopExtension)
    ensures StandardAppId(roots, file) == "-" + sub + "-" + (x + y)
  {
    var name := x + DesktopExtension + y + DesktopExtension;
    var rest := "/" + sub + "/" + name;
    MissingCharNotContained(rest, roots[0], c);
    ExtensionShape();
    assert '/' !in name;
    assert file == roots[0] + ("/" + sub) + "/" + name;
    EncodedUnderFirstRoot(roots, "/" + sub, name, file);
    InnerExtension(roots[0], rest, sub, x, y);
  }

  /** A file `<root>/<sub>/<x>.desktop<y>.desktop` loses both extensions: its identifier
      is `-<sub>-<x><y>`, when the rest does not hold the root again and the names hold
      no `/` or `.`. */
  lemma InnerExtension(root: string, rest: string, sub: string, x: string, y: string)
    requires root != []
    requires rest == "/" + sub + "/" + (x + DesktopExtension + y + DesktopExtension)
    requires '/' !in sub && '.' !in sub && '/' !in x && '.' !in x && '/' !in y && '.' !in y
    requires !Contains(rest, root)
    ensures EncodeUnderRoot(root + rest, root) == "-" + sub + "-" + (x + y)
  {
    RemoveLeading(root, rest);
    InnerDashed(sub, x, y);
    TwoExtensionsDeleted("-" + sub + "-" + x, y);
    assert "-" + sub + "-" + x + y == "-" + sub + "-" + (x + y);
  }

  /** Turning the `/` of `/<sub>/<x>.desktop<y>.desktop` into `-`, grouped at the first
      extension. */
  lemma InnerDashed(sub: string, x: string, y: string)
    requires '/' !in sub && '/' !in x && '/' !in y
    ensures ReplaceChar("/" + sub + "/" + (x + DesktopExtension + y + DesktopExtension), '/', '-')
            == ("-" + sub + "-" + x) + (DesktopExtension + (y + DesktopExtension))
  {
    var base := x + DesktopExtension + y;
    ExtensionShape();
    assert "/" + sub + "/" + (x + DesktopExtension + y + DesktopExtension)
           == "/" + sub + "/" + base + DesktopExtension;
    ReplaceSlashesInSubPath(sub, base);
    ReplaceAbsentChar(sub, '/', '-');
    Regroup("-" + sub + "-", x, y);
  }

  /** The dashed sub-path followed by `<x>.desktop<y>`, then the extension, grouped at
      the first extension. */
  lemma Regroup(lead: string, x: string, y: string)
    ensures lead + (x + DesktopExtension + y) + DesktopExtension
            == (lead + x) + (DesktopExtension + (y + DesktopExtension))
  {
  }

  /** Deleting the extension from `<a>.desktop<y>.desktop`, where `a` and `y` hold no
      `.`, leaves `<a><y>`. */
  lemma TwoExtensionsDeleted(a: string, y: string)
    requires '.' !in a && '.' !in y
    ensures RemoveAll(a + (DesktopExtension + (y + DesktopExtension)), DesktopExtension) == a + y
  {
    ExtensionShape();
    assert DesktopExtension[0] == '.';
    RemoveAllSkips(a, DesktopExtension + (y + DesktopExtension), DesktopExtension);
    RemoveFirst(DesktopExtension, y + DesktopExtension);
    ExtensionDeleted(y);
  }

  /** `-<sub>-<base>` spelled out for the examples above. */
  lemma DashJoin(sub: string, base: string, id: string)
    requires || (sub == "sub" && base == "x" && id == "-sub-x")
             || (sub == "apps" && base == "x" && id == "-apps-x")
             || (sub == "sub" && base == "org.foo.Web" && id == "-sub-org.foo.Web")
             || (sub == "sub" && base == "xy" && id == "-sub-xy")
    ensures "-" + sub + "-" + base == id
  {
  }

  /** The first tagged line decides and later tagged lines are ignored. */
  lemma VendorTagExample(roots: seq<string>, file: string)
    ensures ResolveAppId(roots, file, ["[Desktop Entry]", IdTag + "com.foo.bar_1.2.3", IdTag + "other_2"])
            == "com.foo.bar"
  {
    var raw := "com.foo.bar_1.2.3";
    var lines := ["[Desktop Entry]", IdTag + raw, IdTag + "other_2"];
    GroupHeaderUntagged("[Desktop Entry]");
    TagLeads(raw);
    assert FirstTaggedLine(lines, 1);
    LacksTagLetter(raw);
    TagDeleted(raw);
    StripVersionExample();
  }

  /** A tagged line `com.foo_1` names the application `com.foo`. */
  lemma TaggedLineExample(raw: string)
    requires raw == "com.foo_1"
    ensures StripAppIdVersion(RemoveAll(IdTag + raw, IdTag)) == "com.foo"
  {
    LacksTagLetter(raw);
    TagDeleted(raw);
    StripAppIdVersionAt(raw, 7);
  }

  /** Every occurrence of the tag in the tagged line is deleted, not only the leading one. */
  lemma RepeatedTagExample(roots: seq<string>, file: string)
    ensures ResolveAppId(roots, file, [IdTag + "a" + IdTag + "b_1"]) == "ab"
  {
    var line := IdTag + "a" + IdTag + "b_1";
    var rest := "a" + (IdTag + "b_1");
    assert line == IdTag + rest;
    TagLeads(rest);
    assert FirstTaggedLine([line], 0);
    LeadingTagDeleted(rest);
    LacksTagLetter("a");
    RemoveAllSkips("a", IdTag + "b_1", IdTag);
    LacksTagLetter("b_1");
    TagDeleted("b_1");
    StripJoinedExample("a", "b_1");
  }

  /** The version goes from what is left once the tags are deleted. */
  lemma StripJoinedExample(a: string, b: string)
    requires a == "a" && b == "b_1"
    ensures StripAppIdVersion(a + b) == "ab"
  {
    StripAppIdVersionAt(a + b, 2);
  }

  /** Deleting the tag from a line that starts with it goes on with the rest. */
  lemma LeadingTagDeleted(rest: string)
    ensures RemoveAll(IdTag + rest, IdTag) == RemoveAll(rest, IdTag)
  {
    assert (IdTag + rest)[..|IdTag|] == IdTag;
    assert (IdTag + rest)[|IdTag|..] == rest;
  }

  /** A line that starts with the tag is tagged. */
  lemma TagLeads(raw: string)
    ensures IsPrefix(IdTag, IdTag + raw)
  {
    assert (IdTag + raw)[..|IdTag|] == IdTag;
  }

  /** The group header of a desktop entry is not tagged. */
  lemma GroupHeaderUntagged(line: string)
    requires line == "[Desktop Entry]"
    ensures !IsPrefix(IdTag, line)
  {
  }

  /** The identifiers of these examples hold no `X`, the first letter of the tag. */
  lemma LacksTagLetter(raw: string)
    requires raw == "com.foo.bar_1.2.3" || raw == "com.foo_1" || raw == "a" || raw == "b_1"
    ensures 'X' !in raw && 'X' in IdTag
  {
  }

  /** Deleting the tag from a tagged line whose rest holds no `X`. */
  lemma TagDeleted(raw: string)
    requires 'X' !in raw && 'X' in IdTag
    ensures RemoveAll(IdTag + raw, IdTag) == raw
  {
    MissingCharNotContained(raw, IdTag, 'X');
    RemoveLeading(IdTag, raw);
  }
}

=== FILE: optional.dfy ===
/** An optional value: used for file contents that may not be readable. */
module Optional {

  datatype Option<+T> = None | Some(value: T) {

    /** The value held, or `default` when there is none. */
    function GetOr(default: T): T {
      match this
      case Some(v) => v
      case None => default
    }
  }
}

=== FILE: paths.dfy ===
/** The parts of a file path the watcher asks `QFileInfo` for, on clean absolute paths
    with `/` as the only separator: the directory (`absolutePath`), the file name, the
    complete base name and the suffix; and the path `QDir::entryInfoList` builds for an
    entry of a directory. */
module Paths {
  import opened Strings

  /** Position of the last `c` in `s`, or -1 when `s` holds no `c`. */
  function LastIndexOf(s: string, c: char): (k: int)
    ensures -1 <= k < |s|
    ensures k >= 0 ==> s[k] == c && c !in s[k + 1..]
    ensures k < 0 ==> c !in s
  {
    if |s| == 0 then -1
    else if s[|s| - 1] == c then |s| - 1
    else
      var k := LastIndexOf(s[..|s| - 1], c);
      assert k >= 0 ==> s[k + 1..] == s[..|s| - 1][k + 1..] + [s[|s| - 1]];
      assert k < 0 ==> s == s[..|s| - 1] + [s[|s| - 1]];
      k
  }

  /** A `c` with no `c` after it is the last one. */
  lemma LastIndexOfAt(s: string, c: char, j: int)
    requires 0 <= j < |s| && s[j] == c && c !in s[j + 1..]
    ensures LastIndexOf(s, c) == j
  {
  }

  /** `QFileInfo::absolutePath`: the path up to its last `/`, and `/` itself for a file
      at the top of the tree. A path without `/` is relative; resolving it against the
      working directory is not modelled, and it is given the empty directory. */
  function DirOf(path: string): (dir: string)
    ensures '/' !in path ==> dir == ""
    ensures '/' in path ==>
              && |dir| > 0 && IsPrefix(dir, path)
              && (|| (|dir| < |path| && path[|dir|] == '/' && '/' !in path[|dir| + 1..])
                  || (dir == "/" && '/' !in path[1..]))
  {
    var k := LastIndexOf(path, '/');
    if k < 0 then "" else if k == 0 then "/" else path[..k]
  }

  /** `QFileInfo::fileName`: the path after its last `/`. */
  function FileName(path: string): (name: string)
    ensures '/' !in name
    ensures |name| <= |path| && path[|path| - |name|..] == name
    ensures |name| == |path| || path[|path| - |name| - 1] == '/'
  {
    path[LastIndexOf(path, '/') + 1..]
  }

  /** `QFileInfo::completeBaseName`: the file name up to, not including, its last `.`;
      the whole file name when it has no `.`. */
  function CompleteBaseName(path: string): (base: string)
    ensures IsPrefix(base, FileName(path))
    ensures '.' !in FileName(path) ==> base == FileName(path)
    ensures '.' in FileName(path) ==>
              |base| < |FileName(path)| && FileName(path)[|base|] == '.'
              && '.' !in FileName(path)[|base| + 1..]
  {
    var name := FileName(path);
    var d := LastIndexOf(name, '.');
    if d < 0 then name else name[..d]
  }

  /** `QFileInfo::suffix`: the file name after its last `.`; empty when it has no `.`. */
  function Suffix(path: string): (suffix: string)
    ensures '.' !in suffix
    ensures '.' !in FileName(path) ==> suffix == ""
    ensures '.' in FileName(path) ==> FileName(path) == CompleteBaseName(path) + "." + suffix
  {
    var name := FileName(path);
    var d := LastIndexOf(name, '.');
    if d < 0 then ""
    else
      assert CompleteBaseName(path) == name[..d];
      CutAt(name, d);
      name[d + 1..]
  }

  /** A text is what comes before a position, the character there, and what follows. */
  lemma CutAt(s: string, k: int)
    requires 0 <= k < |s|
    ensures s == s[..k] + [s[k]] + s[k + 1..]
  {
  }

  /** A directory path as `QDir` keeps it: absolute, and with no trailing `/` unless it
      is the top of the tree. */
  predicate CleanDir(dir: string) {
    dir == "/" || (|dir| >= 2 && dir[0] == '/' && dir[|dir| - 1] != '/')
  }

  /** The absolute path of the entry `name` of directory `dir`, as a directory listing
      reports it: one `/` between the two. */
  function ChildPath(dir: string, name: string): string
  {
    if |dir| > 0 && dir[|dir| - 1] == '/' then dir + name else dir + "/" + name
  }

  /** The directory and file name of an entry's path are the directory listed and the
      entry's name. */
  lemma ChildPathParts(dir: string, name: string)
    requires CleanDir(dir)
    requires '/' !in name
    ensures DirOf(ChildPath(dir, name)) == dir
    ensures FileName(ChildPath(dir, name)) == name
  {
    var p := ChildPath(dir, name);
    if dir == "/" {
      assert p == "/" + name;
      assert p[1..] == name;
      LastIndexOfAt(p, '/', 0);
    } else {
      assert p == dir + "/" + name;
      assert p[|dir| + 1..] == name;
      assert p[..|dir|] == dir;
      LastIndexOfAt(p, '/', |dir|);
    }
  }
}

=== FILE: reconcile.dfy ===
/** How the constructor and the two notification handlers fit together: the watch set they
    keep stays made of roots and of desktop files directly inside watched roots, a
    directory notification brings the watch set up to date with the listing so that a
    repeated one finds nothing new, and a removal is reported from the path alone. */
module Reconcile {
  import opened Paths
  import opened AppId
  import opened Watcher

  /** The watched directories are roots, and every watched file is a desktop file lying
      directly in a watched directory. */
  ghost predicate Consistent(roots: seq<string>, w: WatchSet) {
    && (forall d :: d in w.dirs ==> d in roots)
    && (forall p :: p in w.files ==> IsDesktopFile(p) && DirOf(p) in w.dirs)
  }

  /** A path listed in an existing directory lies directly in that directory. */
  lemma ListedLiesIn(fs: FileSystem, dir: string, p: string)
    requires WellFormed(fs)
    requires fs.DirExists(dir)
    requires Listed(dir, fs.Entries(dir), p)
    ensures DirOf(p) == dir
  {
    var k :| 0 <= k < |fs.Entries(dir)| && p == ChildPath(dir, fs.Entries(dir)[k]);
    ChildPathParts(dir, fs.listing[dir][k]);
  }

  /** The constructor starts from a consistent watch set. */
  lemma ConstructConsistent(fs: FileSystem, roots: seq<string>)
    requires WellFormed(fs)
    ensures Consistent(roots, Construct(fs, roots))
  {
    var w := Construct(fs, roots);
    forall p | p in w.files
      ensures IsDesktopFile(p) && DirOf(p) in w.dirs
    {
      var k :| 0 <= k < |roots| && fs.DirExists(roots[k]) && ListedDesktop(fs, roots[k], p);
      ListedLiesIn(fs, roots[k], p);
    }
  }

  /** A directory notification for a watched directory keeps the watch set consistent. */
  lemma DirectoryChangedConsistent(fs: FileSystem, roots: seq<string>, w: WatchSet, dir: string)
    requires WellFormed(fs)
    requires Consistent(roots, w)
    requires dir in w.dirs
    ensures Consistent(roots, DirectoryChanged(fs, roots, w, dir).watch)
  {
    var s := DirectoryChanged(fs, roots, w, dir);
    forall p | p in s.watch.files
      ensures IsDesktopFile(p) && DirOf(p) in s.watch.dirs
    {
      if p !in w.files {
        assert ListedDesktop(fs, dir, p);
        if fs.DirExists(dir) {
          ListedLiesIn(fs, dir, p);
        }
      }
    }
  }

  /** A listing whose desktop files are all in the snapshot has nothing new. */
  lemma {:induction false} NothingNewWhenAllWatched(dir: string, names: seq<string>, snapshot: set<string>)
    requires forall p :: IsDesktopFile(p) && Listed(dir, names, p) ==> p in snapshot
    ensures NewDesktopPaths(dir, names, snapshot) == []
  {
    if |names| > 0 {
      ListedCons(dir, names);
      NothingNewWhenAllWatched(dir, names[1..], snapshot);
      NewDesktopPathsCons(dir, names, snapshot);
    }
  }

  /** Right after the constructor, a directory notification for a root on the same disk
      finds nothing new: no event and no change to the watch set. */
  lemma ConstructThenDirectoryChangedQuiet(fs: FileSystem, roots: seq<string>, dir: string)
    requires dir in roots
    ensures DirectoryChanged(fs, roots, Construct(fs, roots), dir).events == []
    ensures DirectoryChanged(fs, roots, Construct(fs, roots), dir).watch == Construct(fs, roots)
  {
    var w := Construct(fs, roots);
    var s := DirectoryChanged(fs, roots, w, dir);
    var added := NewDesktopPaths(dir, fs.Entries(dir), w.files);
    if fs.DirExists(dir) {
      var i :| 0 <= i < |roots| && roots[i] == dir;
      forall p | ListedDesktop(fs, dir, p)
        ensures p in w.files
      {
        assert fs.DirExists(roots[i]) && ListedDesktop(fs, roots[i], p);
      }
    } else {
      assert fs.Entries(dir) == [];
    }
    NothingNewWhenAllWatched(dir, fs.Entries(dir), w.files);
    assert s.watch.files == w.files;
  }

  /** Handling the same directory notification twice on the same disk: the second finds
      nothing new, so it emits nothing and leaves the watch set as the first left it. */
  lemma DirectoryChangedIdempotent(fs: FileSystem, roots: seq<string>, w: WatchSet, dir: string)
    ensures var first := DirectoryChanged(fs, roots, w, dir);
            var second := DirectoryChanged(fs, roots, first.watch, dir);
            second.events == [] && second.watch == first.watch
  {
    var first := DirectoryChanged(fs, roots, w, dir);
    var second := DirectoryChanged(fs, roots, first.watch, dir);
    var added := NewDesktopPaths(dir, fs.Entries(dir), first.watch.files);
    NothingNewWhenAllWatched(dir, fs.Entries(dir), first.watch.files);
    assert second.watch.files == first.watch.files;
  }

  /** The identifier of a removal depends on the path alone: two disks on which the path
      is gone give the same event, whatever either held before. */
  lemma RemovalIgnoresContent(fs1: FileSystem, fs2: FileSystem, roots: seq<string>,
                              w: WatchSet, path: string)
    requires !fs1.Exists(path) && !fs2.Exists(path)
    ensures FileChanged(fs1, roots, w, path) == FileChanged(fs2, roots, w, path)
    ensures FileChanged(fs1, roots, w, path).events == [AppRemoved(StandardAppId(roots, path))]
  {
  }

  /** Two entries of one directory with different names have different paths. */
  lemma ChildPathInjective(dir: string, n1: string, n2: string)
    requires ChildPath(dir, n1) == ChildPath(dir, n2)
    ensures n1 == n2
  {
    var p := ChildPath(dir, n1);
    var at := if |dir| > 0 && dir[|dir| - 1] == '/' then |dir| else |dir| + 1;
    assert n1 == p[at..];
  }

  /** On a listing without repeated names, the files a directory notification announces
      are distinct: each newly found file gets exactly one `appAdded`. */
  lemma {:induction false} NewDesktopPathsDistinct(dir: string, names: seq<string>, snapshot: set<string>)
    requires forall i, j :: 0 <= i < j < |names| ==> names[i] != names[j]
    ensures var added := NewDesktopPaths(dir, names, snapshot);
            forall i, j :: 0 <= i < j < |added| ==> added[i] != added[j]
  {
    if |names| > 0 {
      var p := ChildPath(dir, names[0]);
      var rest := NewDesktopPaths(dir, names[1..], snapshot);
      NewDesktopPathsDistinct(dir, names[1..], snapshot);
      NewDesktopPathsCons(dir, names, snapshot);
      if IsDesktopFile(p) && p !in snapshot {
        FirstEntryNotAgain(dir, names, snapshot);
        DistinctCons(p, rest);
      }
    }
  }

  /** On a listing without repeated names, the first entry is not among the new files of
      the others. */
  lemma FirstEntryNotAgain(dir: string, names: seq<string>, snapshot: set<string>)
    requires |names| > 0
    requires forall i, j :: 0 <= i < j < |names| ==> names[i] != names[j]
    ensures ChildPath(dir, names[0]) !in NewDesktopPaths(dir, names[1..], snapshot)
  {
    if ChildPath(dir, names[0]) in NewDesktopPaths(dir, names[1..], snapshot) {
      var k :| 0 <= k < |names[1..]| && ChildPath(dir, names[0]) == ChildPath(dir, names[1..][k]);
      ChildPathInjective(dir, names[0], names[k + 1]);
      assert false;
    }
  }

  /** A sequence without repeats stays so with an element it lacks in front. */
  lemma DistinctCons(x: string, s: seq<string>)
    requires x !in s
    requires forall i, j :: 0 <= i < j < |s| ==> s[i] != s[j]
    ensures forall i, j :: 0 <= i < j < |[x] + s| ==> ([x] + s)[i] != ([x] + s)[j]
  {
  }
}

=== FILE: scenario_examples.dfy ===
/** The scenarios on a small disk whose only root is `/apps`, with files that carry no
    tagged line unless stated otherwise. */
module ScenarioExamples {
  import opened Optional
  import opened Paths
  import opened AppId
  import opened Watcher
  import opened Reconcile
  import opened AppIdExamples
  import opened Scenarios

  /** Creating `x.desktop` in the empty root `/apps`, with no tagged line, is announced as
      `appAdded("x")`. */
  lemma CreateExample(before: FileSystem, after: FileSystem, name: string)
    requires name == "x" + DesktopExtension
    requires before == FileSystem(map[Apps := []], map[])
    requires after == FileSystem(before.listing[Apps := [name]],
                                 map[ChildPath(Apps, name) := Some(["[Desktop Entry]"])])
    ensures DirectoryChanged(after, [Apps], Construct(before, [Apps]), Apps).events == [AppAdded("x")]
  {
    AppsOnlyWellFormed(before, []);
    NoSlashInEntry("x", name);
    assert before.Entries(Apps) == [] + [];
    assert [name] == [] + [name] + [];
    assert after.listing == before.listing[Apps := [] + [name] + []];
    DesktopEntryIsDesktopFile(Apps, "x");
    CreateAfterConstruct(before, after, [Apps], Apps, [], name, []);
    UntaggedEntryId(after, "x", name);
  }

  /** An entry `<base>.desktop` of `/apps`, readable and without a tagged line, is known
      as `base`. */
  lemma UntaggedEntryId(fs: FileSystem, base: string, name: string)
    requires '/' !in base && name == base + DesktopExtension
    requires ChildPath(Apps, name) in fs.content
    requires fs.content[ChildPath(Apps, name)] == Some(["[Desktop Entry]"])
    ensures ToAppId(fs, [Apps], ChildPath(Apps, name)) == base
  {
    GroupHeaderUntagged("[Desktop Entry]");
    EntryStandardId(base, name);
  }

  /** The entry `<base>.desktop` of `/apps` has the standard identifier `base`. */
  lemma EntryStandardId(base: string, name: string)
    requires '/' !in base && name == base + DesktopExtension
    ensures StandardAppId([Apps], ChildPath(Apps, name)) == base
  {
    var path := ChildPath(Apps, name);
    assert path == Apps + "/" + base + DesktopExtension;
    DirectlyInFirstRoot([Apps], base, path);
  }

  /** A name `<base>.desktop` holds a `/` only when `base` does. */
  lemma NoSlashInEntry(base: string, name: string)
    requires '/' !in base && name == base + DesktopExtension
    ensures '/' !in name
  {
    ExtensionShape();
  }

  /** A disk whose only directory is `/apps`, listing files with names without `/`, is
      well formed. */
  lemma AppsOnlyWellFormed(fs: FileSystem, entries: seq<string>)
    requires fs.listing == map[Apps := entries]
    requires forall k :: 0 <= k < |entries| ==> '/' !in entries[k] && ChildPath(Apps, entries[k]) in fs.content
    ensures WellFormed(fs)
  {
    assert CleanDir(Apps);
  }

  /** Renaming `x.desktop` to `y.desktop`, the only entry of `/apps`, is announced as the
      removal of `x` followed by the addition of `y` when the file notification comes
      first. */
  lemma RenameExample(before: FileSystem, after: FileSystem, x: string, y: string)
    requires x == "x" + DesktopExtension && y == "y" + DesktopExtension
    requires before == FileSystem(map[Apps := [x]], map[ChildPath(Apps, x) := Some(["[Desktop Entry]"])])
    requires after == FileSystem(before.listing[Apps := [y]], map[ChildPath(Apps, y) := Some(["[Desktop Entry]"])])
    ensures var removed := FileChanged(after, [Apps], Construct(before, [Apps]), ChildPath(Apps, x));
            removed.events + DirectoryChanged(after, [Apps], removed.watch, Apps).events
            == [AppRemoved("x"), AppAdded("y")]
  {
    NoSlashInEntry("x", x);
    NoSlashInEntry("y", y);
    AppsOnlyWellFormed(before, [x]);
    DifferentEntries(x, y);
    assert before.Entries(Apps) == [] + [x] + [];
    assert [y] == [] + [y] + [];
    assert after.listing == before.listing[Apps := [] + [y] + []];
    GoneAfterRename(after, x, y);
    DesktopEntryIsDesktopFile(Apps, "y");
    ConstructWatchesListing(before, [Apps], Apps);
    ConstructWatchesEntry(before, [Apps], Apps, y);
    RenameScenario(before, after, [Apps], Construct(before, [Apps]), Apps, [], x, [], [], y, []);
    EntryStandardId("x", x);
    UntaggedEntryId(after, "y", y);
  }

  /** `x.desktop` and `y.desktop` are different names. */
  lemma DifferentEntries(x: string, y: string)
    requires x == "x" + DesktopExtension && y == "y" + DesktopExtension
    ensures x != y && y !in [x]
  {
    assert x[0] != y[0];
  }

  /** After the rename, the old path is neither a directory nor a file. */
  lemma GoneAfterRename(after: FileSystem, x: string, y: string)
    requires x != y
    requires after.listing.Keys == {Apps}
    requires after.content.Keys == {ChildPath(Apps, y)}
    ensures !after.Exists(ChildPath(Apps, x))
  {
    assert |ChildPath(Apps, x)| > |Apps|;
    if ChildPath(Apps, x) == ChildPath(Apps, y) {
      ChildPathInjective(Apps, x, y);
    }
  }

  /** A file `/apps/x.desktop` whose tagged line names `com.foo_1` is added as `com.foo`
      but removed as `x`: the removal does not reach the application the addition
      announced. */
  lemma VendorRemovalExample(before: FileSystem, after: FileSystem, w: WatchSet, path: string)
    requires path == Apps + "/x.desktop"
    requires path in before.content && before.content[path] == Some([IdTag + "com.foo_1"])
    requires !after.Exists(path)
    ensures ToAppId(before, [Apps], path) == "com.foo"
    ensures FileChanged(after, [Apps], w, path).events == [AppRemoved("x")]
    ensures ToAppId(before, [Apps], path) != StandardAppId([Apps], path)
  {
    DeleteScenario(before, after, [Apps], w, path, "com.foo_1");
    TaggedLineExample("com.foo_1");
    PlainRootFileExample(path);
  }
}

=== FILE: scenarios.dfy ===
/** The life of one desktop file under a watched directory, told through the handlers: it
    is created, modified, deleted or renamed between two notifications. Each scenario
    starts from a watch set that holds every desktop file the directory listed before the
    change, and not the new path; the watch set the constructor builds is one. */
module Scenarios {
  import opened Optional
  import opened Strings
  import opened Paths
  import opened AppId
  import opened Watcher
  import opened Reconcile

  /** The new desktop files of a listing are those of its first part followed by those
      of the rest. */
  lemma {:induction false} NewDesktopPathsAppend(dir: string, a: seq<string>, b: seq<string>, snapshot: set<string>)
    ensures NewDesktopPaths(dir, a + b, snapshot)
            == NewDesktopPaths(dir, a, snapshot) + NewDesktopPaths(dir, b, snapshot)
    decreases |a|
  {
    if |a| == 0 {
      assert a + b == b;
    } else {
      assert (a + b)[0] == a[0];
      assert (a + b)[1..] == a[1..] + b;
      NewDesktopPathsAppend(dir, a[1..], b, snapshot);
      NewDesktopPathsCons(dir, a + b, snapshot);
      NewDesktopPathsCons(dir, a, snapshot);
    }
  }

  /** On a well-formed disk, the constructor watches the entry `name` of a directory
      exactly when the directory is a root that exists, the entry is listed there and it
      is a desktop file. */
  lemma ConstructWatchesEntry(fs: FileSystem, roots: seq<string>, dir: string, name: string)
    requires WellFormed(fs)
    requires fs.DirExists(dir) && '/' !in name
    ensures ChildPath(dir, name) in Construct(fs, roots).files <==>
              dir in roots && IsDesktopFile(ChildPath(dir, name)) && name in fs.Entries(dir)
  {
    var p := ChildPath(dir, name);
    ChildPathParts(dir, name);
    if p in Construct(fs, roots).files {
      var k :| 0 <= k < |roots| && fs.DirExists(roots[k]) && ListedDesktop(fs, roots[k], p);
      ListedLiesIn(fs, roots[k], p);
      var j :| 0 <= j < |fs.Entries(dir)| && p == ChildPath(dir, fs.Entries(dir)[j]);
      ChildPathInjective(dir, name, fs.Entries(dir)[j]);
    }
    if dir in roots && IsDesktopFile(p) && name in fs.Entries(dir) {
      var k :| 0 <= k < |roots| && roots[k] == dir;
      var j :| 0 <= j < |fs.Entries(dir)| && fs.Entries(dir)[j] == name;
      assert Listed(dir, fs.Entries(dir), p);
      assert fs.DirExists(roots[k]) && ListedDesktop(fs, roots[k], p);
    }
  }

  /** `w` watches every desktop file `dir` listed on the disk `fs`. */
  ghost predicate WatchesListing(fs: FileSystem, dir: string, w: WatchSet) {
    forall p :: ListedDesktop(fs, dir, p) ==> p in w.files
  }

  /** The constructor watches every desktop file an existing root lists. */
  lemma ConstructWatchesListing(fs: FileSystem, roots: seq<string>, dir: string)
    requires dir in roots && fs.DirExists(dir)
    ensures WatchesListing(fs, dir, Construct(fs, roots))
  {
    forall p | ListedDesktop(fs, dir, p)
      ensures p in Construct(fs, roots).files
    {
      var i :| 0 <= i < |roots| && roots[i] == dir;
      assert fs.DirExists(roots[i]) && ListedDesktop(fs, roots[i], p);
    }
  }

  /** Entries a directory listed before, while every desktop file it listed then is
      watched, bring no new file when a notification lists them again. */
  lemma KeptEntriesQuiet(before: FileSystem, dir: string, kept: seq<string>, w: WatchSet)
    requires WatchesListing(before, dir, w)
    requires forall k :: 0 <= k < |kept| ==> kept[k] in before.Entries(dir)
    ensures NewDesktopPaths(dir, kept, w.files) == []
  {
    forall q | IsDesktopFile(q) && Listed(dir, kept, q)
      ensures q in w.files
    {
      var k :| 0 <= k < |kept| && q == ChildPath(dir, kept[k]);
      var j :| 0 <= j < |before.Entries(dir)| && before.Entries(dir)[j] == kept[k];
      assert Listed(dir, before.Entries(dir), q);
    }
    NothingNewWhenAllWatched(dir, kept, w.files);
  }

  /** A listing that brings no new file before and after its middle part brings the new
      files of the middle part. */
  lemma QuietAround(dir: string, pre: seq<string>, mid: seq<string>, post: seq<string>, snapshot: set<string>)
    requires NewDesktopPaths(dir, pre, snapshot) == []
    requires NewDesktopPaths(dir, post, snapshot) == []
    ensures NewDesktopPaths(dir, pre + mid + post, snapshot) == NewDesktopPaths(dir, mid, snapshot)
  {
    NewDesktopPathsAppend(dir, pre, mid, snapshot);
    NewDesktopPathsAppend(dir, pre + mid, post, snapshot);
    assert [] + NewDesktopPaths(dir, mid, snapshot) + [] == NewDesktopPaths(dir, mid, snapshot);
  }

  /** An entry whose path is not watched is new, if it is a desktop file. */
  lemma NewEntryFound(dir: string, name: string, w: WatchSet)
    requires ChildPath(dir, name) !in w.files
    requires IsDesktopFile(ChildPath(dir, name))
    ensures NewDesktopPaths(dir, [name], w.files) == [ChildPath(dir, name)]
  {
    NewDesktopPathsCons(dir, [name], w.files);
    assert NewDesktopPaths(dir, [name][1..], w.files) == [];
  }

  /** A notification for a directory whose listing now holds, around one entry whose path
      is not watched, only entries it held before, while every desktop file it listed
      then is watched: the only file found new is that entry, if it is a desktop file,
      wherever the listing places it. */
  lemma OneNewEntry(before: FileSystem, dir: string, pre: seq<string>, name: string, post: seq<string>,
                    w: WatchSet)
    requires WatchesListing(before, dir, w)
    requires ChildPath(dir, name) !in w.files
    requires forall k :: 0 <= k < |pre| ==> pre[k] in before.Entries(dir)
    requires forall k :: 0 <= k < |post| ==> post[k] in before.Entries(dir)
    requires IsDesktopFile(ChildPath(dir, name))
    ensures NewDesktopPaths(dir, pre + [name] + post, w.files) == [ChildPath(dir, name)]
  {
    KeptEntriesQuiet(before, dir, pre, w);
    KeptEntriesQuiet(before, dir, post, w);
    NewEntryFound(dir, name, w);
    QuietAround(dir, pre, [name], post, w.files);
  }

  /** Every entry of the two parts of a listing is an entry of the listing. */
  lemma PartsListed(entries: seq<string>, pre: seq<string>, post: seq<string>)
    requires entries == pre + post
    ensures forall k :: 0 <= k < |pre| ==> pre[k] in entries
    ensures forall k :: 0 <= k < |post| ==> post[k] in entries
  {
    forall k | 0 <= k < |pre|
      ensures pre[k] in entries
    {
      assert entries[k] == pre[k];
    }
    forall k | 0 <= k < |post|
      ensures post[k] in entries
    {
      assert entries[|pre| + k] == post[k];
    }
  }

  /** Creating a desktop file in a directory whose desktop files are all watched, under a
      path that is not watched: the directory notification emits exactly one `appAdded`,
      with the identifier read from the new file, and the file is watched from then on.
      The new entry may come anywhere in the new listing. */
  lemma CreateScenario(before: FileSystem, after: FileSystem, roots: seq<string>, w: WatchSet,
                       dir: string, pre: seq<string>, name: string, post: seq<string>)
    requires WatchesListing(before, dir, w)
    requires ChildPath(dir, name) !in w.files
    requires before.Entries(dir) == pre + post
    requires after.listing == before.listing[dir := pre + [name] + post]
    requires IsDesktopFile(ChildPath(dir, name))
    ensures var s := DirectoryChanged(after, roots, w, dir);
            && s.events == [AppAdded(ToAppId(after, roots, ChildPath(dir, name)))]
            && ChildPath(dir, name) in s.watch.files
  {
    assert after.Entries(dir) == pre + [name] + post;
    PartsListed(before.Entries(dir), pre, post);
    OneNewEntry(before, dir, pre, name, post, w);
  }

  /** Right after construction, every root that exists meets the conditions of
      `CreateScenario` for a desktop file it did not list. */
  lemma CreateAfterConstruct(before: FileSystem, after: FileSystem, roots: seq<string>, dir: string,
                             pre: seq<string>, name: string, post: seq<string>)
    requires WellFormed(before)
    requires dir in roots && before.DirExists(dir)
    requires '/' !in name && name !in before.Entries(dir)
    requires before.Entries(dir) == pre + post
    requires after.listing == before.listing[dir := pre + [name] + post]
    requires IsDesktopFile(ChildPath(dir, name))
    ensures var s := DirectoryChanged(after, roots, Construct(before, roots), dir);
            && s.events == [AppAdded(ToAppId(after, roots, ChildPath(dir, name)))]
            && ChildPath(dir, name) in s.watch.files
  {
    ConstructWatchesListing(before, roots, dir);
    ConstructWatchesEntry(before, roots, dir, name);
    CreateScenario(before, after, roots, Construct(before, roots), dir, pre, name, post);
  }

  /** The entry `<base>.desktop` of a clean directory is a desktop file. */
  lemma DesktopEntryIsDesktopFile(dir: string, base: string)
    requires CleanDir(dir) && '/' !in base
    ensures IsDesktopFile(ChildPath(dir, base + DesktopExtension))
  {
    var name := base + DesktopExtension;
    ChildPathParts(dir, name);
    ExtensionShape();
    assert name[|base|] == '.' && name[|base| + 1..] == DesktopExtension[1..];
    OneDotInExtension();
    LastIndexOfAt(name, '.', |base|);
    ExtensionTail();
  }

  /** The extension after its `.` is the suffix the watcher looks for. */
  lemma ExtensionTail()
    ensures DesktopExtension[1..] == "desktop"
  {
  }

  /** After the creation, modifying the file is reported as a change of the file, not as
      a new application. */
  lemma CreateThenModifyScenario(before: FileSystem, after: FileSystem, later: FileSystem,
                                 roots: seq<string>, w: WatchSet, dir: string,
                                 pre: seq<string>, name: string, post: seq<string>)
    requires WatchesListing(before, dir, w)
    requires ChildPath(dir, name) !in w.files
    requires before.Entries(dir) == pre + post
    requires after.listing == before.listing[dir := pre + [name] + post]
    requires IsDesktopFile(ChildPath(dir, name))
    requires later.Exists(ChildPath(dir, name))
    ensures var s := DirectoryChanged(after, roots, w, dir);
            var t := FileChanged(later, roots, s.watch, ChildPath(dir, name));
            && t.events == [AppInfoChanged(ToAppId(later, roots, ChildPath(dir, name)))]
            && ChildPath(dir, name) in t.watch.files
  {
    CreateScenario(before, after, roots, w, dir, pre, name, post);
  }

  /** Deleting a file reports its removal under the identifier its path gives, even when
      the file named its application itself with the vendor tag. */
  lemma DeleteScenario(before: FileSystem, after: FileSystem, roots: seq<string>, w: WatchSet,
                       path: string, raw: string)
    requires path in before.content && before.content[path] == Some([IdTag + raw])
    requires !after.Exists(path)
    ensures FileChanged(after, roots, w, path).events == [AppRemoved(StandardAppId(roots, path))]
    ensures ToAppId(before, roots, path) == StripAppIdVersion(RemoveAll(IdTag + raw, IdTag))
  {
    assert (IdTag + raw)[..|IdTag|] == IdTag;
    assert FirstTaggedLine([IdTag + raw], 0);
  }

  /** Two handlers that emit one event each emit two events in a row. */
  lemma EventPair(s: seq<Event>, t: seq<Event>)
    requires |s| == 1 && |t| == 1
    ensures s + t == [s[0], t[0]]
  {
  }

  /** The entries left after taking `a` out of a listing are entries of the listing. */
  lemma RemainingListed(entries: seq<string>, p1: seq<string>, a: string, p2: seq<string>,
                        q1: seq<string>, q2: seq<string>)
    requires entries == p1 + [a] + p2
    requires q1 + q2 == p1 + p2
    ensures forall k :: 0 <= k < |q1| ==> q1[k] in entries
    ensures forall k :: 0 <= k < |q2| ==> q2[k] in entries
  {
    forall k | 0 <= k < |q1| + |q2|
      ensures (q1 + q2)[k] in entries
    {
      if k < |p1| {
        assert (q1 + q2)[k] == p1[k] == entries[k];
      } else {
        assert (q1 + q2)[k] == p2[k - |p1|] == entries[k + 1];
      }
    }
    forall k | 0 <= k < |q1|
      ensures q1[k] in entries
    {
      assert (q1 + q2)[k] == q1[k];
    }
    forall k | 0 <= k < |q2|
      ensures q2[k] in entries
    {
      assert (q1 + q2)[|q1| + k] == q2[k];
    }
  }

  /** Renaming the entry `a` of a directory whose desktop files are all watched to `b`,
      whose path is not watched: the file notification for the old path and the directory
      notification each emit one event of their own, the removal of `a` and the addition
      of `b`, whichever is handled first. The other entries keep their order, and the new
      name may come anywhere among them. */
  lemma RenameScenario(before: FileSystem, after: FileSystem, roots: seq<string>, w: WatchSet,
                       dir: string, p1: seq<string>, a: string, p2: seq<string>,
                       q1: seq<string>, b: string, q2: seq<string>)
    requires WatchesListing(before, dir, w)
    requires ChildPath(dir, b) !in w.files
    requires before.Entries(dir) == p1 + [a] + p2
    requires q1 + q2 == p1 + p2
    requires after.listing == before.listing[dir := q1 + [b] + q2]
    requires !after.Exists(ChildPath(dir, a))
    requires IsDesktopFile(ChildPath(dir, b))
    ensures var removed := FileChanged(after, roots, w, ChildPath(dir, a));
            var added := DirectoryChanged(after, roots, removed.watch, dir);
            removed.events + added.events
            == [AppRemoved(StandardAppId(roots, ChildPath(dir, a))), AppAdded(ToAppId(after, roots, ChildPath(dir, b)))]
    ensures var added := DirectoryChanged(after, roots, w, dir);
            var removed := FileChanged(after, roots, added.watch, ChildPath(dir, a));
            added.events + removed.events
            == [AppAdded(ToAppId(after, roots, ChildPath(dir, b))), AppRemoved(StandardAppId(roots, ChildPath(dir, a)))]
  {
    assert after.Entries(dir) == q1 + [b] + q2;
    RemainingListed(before.Entries(dir), p1, a, p2, q1, q2);
    OneNewEntry(before, dir, q1, b, q2, w);
    var added := DirectoryChanged(after, roots, w, dir);
    assert added.events == [AppAdded(ToAppId(after, roots, ChildPath(dir, b)))];
    var removed := FileChanged(after, roots, w, ChildPath(dir, a));
    assert DirectoryChanged(after, roots, removed.watch, dir) == added;
    var again := FileChanged(after, roots, added.watch, ChildPath(dir, a));
    EventPair(removed.events, added.events);
    EventPair(added.events, again.events);
  }
}

=== FILE: strings.dfy ===
/** The text operations the watcher performs on `QString` values, all case-sensitive:
    `startsWith`, `contains`, `replace` and `split` followed by `join`. */
module Strings {

  /** `s.startsWith(pre)`. */
  predicate IsPrefix(pre: string, s: string) {
    |pre| <= |s| && s[..|pre|] == pre
  }

  /** `s.contains(pat)`: `pat` occurs at some position of `s`. The empty string occurs
      in every string, as it does for `QString::contains`. */
  predicate Contains(s: string, pat: string) {
    exists i :: 0 <= i <= |s| - |pat| && IsPrefix(pat, s[i..])
  }

  /** Every string occurs in itself. */
  lemma ContainsItself(s: string)
    ensures Contains(s, s)
  {
    assert s[0..] == s;
  }

  /** A text that lacks one of the characters of `pat` holds no occurrence of `pat`. */
  lemma MissingCharNotContained(s: string, pat: string, c: char)
    requires c in pat && c !in s
    ensures !Contains(s, pat)
  {
  }

  /** A text shorter than `pat` holds no occurrence of it. */
  lemma ShorterNotContained(s: string, pat: string)
    requires |s| < |pat|
    ensures !Contains(s, pat)
  {
  }

  /** An occurrence in the tail of a string is an occurrence in the string. */
  lemma ContainsTail(s: string, pat: string)
    requires |s| > 0
    requires Contains(s[1..], pat)
    ensures Contains(s, pat)
  {
    var i :| 0 <= i <= |s[1..]| - |pat| && IsPrefix(pat, s[1..][i..]);
    assert s[1..][i..] == s[i + 1..];
  }

  /** `s.replace(pat, "")`: one left-to-right pass that deletes every non-overlapping
      occurrence of `pat`; text brought together by a deletion is not searched again.
      An empty `pat` leaves `s` as it is. */
  function RemoveAll(s: string, pat: string): (r: string)
    ensures |r| <= |s|
    decreases |s|
  {
    if pat == [] || |s| < |pat| then s
    else if IsPrefix(pat, s) then RemoveAll(s[|pat|..], pat)
    else [s[0]] + RemoveAll(s[1..], pat)
  }

  /** A text that holds no occurrence of `pat` is left as it is. */
  lemma {:induction false} RemoveAllAbsent(s: string, pat: string)
    requires !Contains(s, pat)
    ensures RemoveAll(s, pat) == s
    decreases |s|
  {
    if pat == [] || |s| < |pat| {
    } else {
      assert s[0..] == s;
      assert !IsPrefix(pat, s);
      if Contains(s[1..], pat) {
        ContainsTail(s, pat);
      }
      RemoveAllAbsent(s[1..], pat);
      assert [s[0]] + s[1..] == s;
    }
  }

  /** `s.replace(QString(from), QString(to))` for one-character strings: every `from`
      becomes `to`, every other character is kept in place. */
  function ReplaceChar(s: string, from: char, to: char): (r: string)
    ensures |r| == |s|
    ensures forall i :: 0 <= i < |s| ==> r[i] == if s[i] == from then to else s[i]
  {
    if |s| == 0 then []
    else [if s[0] == from then to else s[0]] + ReplaceChar(s[1..], from, to)
  }

  /** Replacing a character the text does not hold changes nothing. */
  lemma ReplaceAbsentChar(s: string, from: char, to: char)
    requires from !in s
    ensures ReplaceChar(s, from, to) == s
  {
  }

  /** Deleting every `pat` from a text that starts with `pat` leaves the rest of the
      text when the rest holds no further occurrence of `pat`. */
  lemma RemoveLeading(pat: string, rest: string)
    requires pat != []
    requires !Contains(rest, pat)
    ensures RemoveAll(pat + rest, pat) == rest
  {
    assert (pat + rest)[..|pat|] == pat;
    assert (pat + rest)[|pat|..] == rest;
    RemoveAllAbsent(rest, pat);
  }

  /** A leading `pat` is deleted and the pass goes on with the rest of the text, which
      may start with `pat` again. */
  lemma RemoveFirst(pat: string, rest: string)
    requires pat != []
    ensures RemoveAll(pat + rest, pat) == RemoveAll(rest, pat)
  {
    assert (pat + rest)[..|pat|] == pat;
    assert (pat + rest)[|pat|..] == rest;
  }

  /** Deletion brings in no character: what the text lacks, the result lacks too. */
  lemma {:induction false} RemoveAllKeepsOut(s: string, pat: string, c: char)
    requires c !in s
    ensures c !in RemoveAll(s, pat)
    decreases |s|
  {
    if pat == [] || |s| < |pat| {
    } else if IsPrefix(pat, s) {
      assert forall k :: 0 <= k < |s[|pat|..]| ==> s[|pat|..][k] == s[k + |pat|];
      RemoveAllKeepsOut(s[|pat|..], pat, c);
    } else {
      assert forall k :: 0 <= k < |s[1..]| ==> s[1..][k] == s[k + 1];
      RemoveAllKeepsOut(s[1..], pat, c);
    }
  }

  /** Deleting `pat` from a text followed by one `pat` removes just that one, when the
      text holds no `pat` of its own and the first character of `pat` does not recur in
      it: no occurrence can then straddle the text and the trailing `pat`. */
  lemma {:induction false} RemoveTrailing(x: string, pat: string)
    requires pat != [] && pat[0] !in pat[1..]
    requires !Contains(x, pat)
    ensures RemoveAll(x + pat, pat) == x
    decreases |x|
  {
    var s := x + pat;
    if |x| == 0 {
      assert s == pat;
      assert pat[..|pat|] == pat;
      assert pat[|pat|..] == [];
    } else {
      assert !IsPrefix(pat, s) by {
        if |x| >= |pat| {
          assert x[0..] == x;
          assert !IsPrefix(pat, x);
          assert s[..|pat|] == x[..|pat|];
        } else {
          assert s[..|pat|][|x|] == pat[0];
          assert pat[|x|] == pat[1..][|x| - 1];
        }
      }
      if Contains(x[1..], pat) {
        ContainsTail(x, pat);
      }
      RemoveTrailing(x[1..], pat);
      assert s[1..] == x[1..] + pat;
      assert [x[0]] + x[1..] == x;
    }
  }

  /** Deletion of a pattern starting with a character that `x` does not hold leaves `x`
      alone and works on what follows it. */
  lemma {:induction false} RemoveAllSkips(x: string, tail: string, pat: string)
    requires pat != [] && pat[0] !in x
    ensures RemoveAll(x + tail, pat) == x + RemoveAll(tail, pat)
  {
    if |x| == 0 {
      assert x + tail == tail;
    } else {
      var s := x + tail;
      var r := RemoveAll(tail, pat);
      assert s[0] == x[0] && s[1..] == x[1..] + tail;
      StepOver(s, pat);
      assert pat[0] !in x[1..];
      RemoveAllSkips(x[1..], tail, pat);
      assert RemoveAll(s, pat) == [x[0]] + (x[1..] + r);
      assert [x[0]] + (x[1..] + r) == x + r;
    }
  }

  /** A text whose first character cannot start the pattern keeps that character, and
      the deletion goes on after it. */
  lemma StepOver(s: string, pat: string)
    requires pat != [] && s != [] && s[0] != pat[0]
    ensures RemoveAll(s, pat) == [s[0]] + RemoveAll(s[1..], pat)
  {
    if |s| < |pat| {
      assert RemoveAll(s[1..], pat) == s[1..];
      assert [s[0]] + s[1..] == s;
    } else {
      assert s[..|pat|][0] == s[0];
    }
  }

  /** Replacement brings in no character other than the replacement. */
  lemma ReplaceCharKeepsOut(s: string, from: char, to: char, c: char)
    requires c != to && c !in s
    ensures c !in ReplaceChar(s, from, to)
  {
    var r := ReplaceChar(s, from, to);
    forall k | 0 <= k < |r|
      ensures r[k] != c
    {
      assert r[k] == to || r[k] == s[k];
    }
  }

  /** An occurrence of `pat` after replacing a character, when `pat` holds neither the
      replaced nor the replacing character, was there before. */
  lemma ReplaceCharOccurrence(s: string, from: char, to: char, pat: string, i: int)
    requires from !in pat && to !in pat
    requires 0 <= i <= |s| - |pat| && IsPrefix(pat, ReplaceChar(s, from, to)[i..])
    ensures IsPrefix(pat, s[i..])
  {
    var r := ReplaceChar(s, from, to);
    forall k | 0 <= k < |pat|
      ensures s[i..][k] == pat[k]
    {
      assert r[i..][k] == pat[k];
    }
    assert s[i..][..|pat|] == pat;
  }

  /** Replacing one character by another, neither of which `pat` holds, creates no
      occurrence of `pat`. */
  lemma ReplaceCharNotContained(s: string, from: char, to: char, pat: string)
    requires from !in pat && to !in pat
    requires !Contains(s, pat)
    ensures !Contains(ReplaceChar(s, from, to), pat)
  {
    var r := ReplaceChar(s, from, to);
    if Contains(r, pat) {
      var i :| 0 <= i <= |r| - |pat| && IsPrefix(pat, r[i..]);
      ReplaceCharOccurrence(s, from, to, pat, i);
    }
  }

  /** An occurrence of `pat` in `a + [c] + b` lies within `a`, or within `b`, or covers
      the `c`. */
  lemma AroundCharOccurrence(a: string, c: char, b: string, pat: string, i: int)
    requires 0 <= i <= |a + [c] + b| - |pat| && IsPrefix(pat, (a + [c] + b)[i..])
    ensures Contains(a, pat) || Contains(b, pat) || c in pat
  {
    var s := a + [c] + b;
    if i + |pat| <= |a| {
      assert a[i..][..|pat|] == s[i..][..|pat|];
      assert IsPrefix(pat, a[i..]);
    } else if i > |a| {
      var j := i - |a| - 1;
      assert b[j..][..|pat|] == s[i..][..|pat|];
      assert IsPrefix(pat, b[j..]);
    } else {
      assert s[i..][..|pat|][|a| - i] == c;
    }
  }

  /** A `pat` that lacks `c` and occurs neither in `a` nor in `b` does not occur in
      `a + [c] + b`. */
  lemma AroundCharNotContained(a: string, c: char, b: string, pat: string)
    requires c !in pat
    requires !Contains(a, pat) && !Contains(b, pat)
    ensures !Contains(a + [c] + b, pat)
  {
    var s := a + [c] + b;
    if Contains(s, pat) {
      var i :| 0 <= i <= |s| - |pat| && IsPrefix(pat, s[i..]);
      AroundCharOccurrence(a, c, b, pat, i);
    }
  }

  /** `s.split(sep)` keeping empty parts: the maximal runs of `s` that hold no `sep`,
      so there is always at least one part (`[""]` for the empty string). */
  function Split(s: string, sep: char): (parts: seq<string>)
    ensures |parts| >= 1
    ensures forall k :: 0 <= k < |parts| ==> sep !in parts[k]
    ensures sep !in s ==> parts == [s]
  {
    if |s| == 0 then [""]
    else
      var rest := Split(s[1..], sep);
      if s[0] == sep then [""] + rest
      else
        assert sep !in s ==> [s[0]] + s[1..] == s;
        [[s[0]] + rest[0]] + rest[1..]
  }

  /** `parts.join(sep)`: the parts in order with one `sep` between neighbours. */
  function Join(parts: seq<string>, sep: char): (s: string)
  {
    if |parts| == 0 then ""
    else if |parts| == 1 then parts[0]
    else parts[0] + [sep] + Join(parts[1..], sep)
  }

  /** Splitting and joining on the same separator gives back the original text. */
  lemma {:induction false} JoinSplit(s: string, sep: char)
    ensures Join(Split(s, sep), sep) == s
  {
    if |s| > 0 {
      var rest := Split(s[1..], sep);
      JoinSplit(s[1..], sep);
      if s[0] == sep {
        assert Join([""] + rest, sep) == "" + [sep] + Join(rest, sep);
      } else if |rest| == 1 {
        assert Split(s, sep) == [[s[0]] + rest[0]];
      } else {
        var parts := Split(s, sep);
        assert parts[1..] == rest[1..];
        assert Join(rest, sep) == rest[0] + [sep] + Join(rest[1..], sep);
      }
    }
  }

  /** Splitting a text that starts with a separator-free piece and a separator. */
  lemma {:induction false} SplitAfterPiece(x: string, y: string, sep: char)
    requires sep !in x
    ensures Split(x + [sep] + y, sep) == [x] + Split(y, sep)
  {
    if |x| > 0 {
      SplitAfterPiece(x[1..], y, sep);
      assert (x + [sep] + y)[1..] == x[1..] + [sep] + y;
      assert [x[0]] + x[1..] == x;
    } else {
      assert (x + [sep] + y)[1..] == y;
    }
  }

  /** Joining separator-free parts and splitting again gives back the parts. */
  lemma {:induction false} SplitJoin(parts: seq<string>, sep: char)
    requires |parts| >= 1
    requires forall k :: 0 <= k < |parts| ==> sep !in parts[k]
    ensures Split(Join(parts, sep), sep) == parts
  {
    if |parts| > 1 {
      SplitJoin(parts[1..], sep);
      SplitAfterPiece(parts[0], Join(parts[1..], sep), sep);
      assert [parts[0]] + parts[1..] == parts;
    }
  }

  /** A join of at least two parts ends with a separator and the last part. */
  lemma {:induction false} JoinLast(parts: seq<string>, sep: char)
    requires |parts| >= 2
    ensures Join(parts, sep) == Join(parts[..|parts| - 1], sep) + [sep] + parts[|parts| - 1]
  {
    if |parts| > 2 {
      JoinLast(parts[1..], sep);
      assert parts[1..][..|parts| - 2] == parts[..|parts| - 1][1..];
    }
  }
}

=== FILE: watcher.dfy ===
/** The watcher of the application directories. It keeps a watch set of directories and
    desktop files, and turns change notifications into `appAdded`, `appInfoChanged` and
    `appRemoved` events carrying application identifiers. The filesystem is a value: the
    listing of each existing directory and the lines of each existing file. */
module Watcher {
  import opened Optional
  import opened Strings
  import opened Paths
  import opened AppId

  /** What the watcher can see of the disk. `listing` maps each existing directory to the
      names of the files directly in it, in the order `QDir::entryInfoList` reports them;
      `content` maps each existing file to its lines, or to `None` when it cannot be read. */
  datatype FileSystem = FileSystem(listing: map<string, seq<string>>,
                                   content: map<string, Option<seq<string>>>)
  {
    /** `QDir::exists`. */
    predicate DirExists(dir: string) {
      dir in listing
    }

    /** `QFileInfo::exists`, for files and directories alike. */
    predicate Exists(path: string) {
      path in listing || path in content
    }

    /** The files directly in `dir`; a directory that does not exist lists nothing. */
    function Entries(dir: string): seq<string> {
      if dir in listing then listing[dir] else []
    }

    /** The lines read from `path`; a file that cannot be opened reads as no lines. */
    function Lines(path: string): seq<string> {
      if path in content then content[path].GetOr([]) else []
    }
  }

  /** The paths under watch, as `QFileSystemWatcher::directories` and `files` report them. */
  datatype WatchSet = WatchSet(dirs: set<string>, files: set<string>)

  /** The signals the watcher emits. */
  datatype Event = AppAdded(appId: string) | AppInfoChanged(appId: string) | AppRemoved(appId: string)

  /** The watch set after handling a notification, and the events emitted meanwhile. */
  datatype Step = Step(watch: WatchSet, events: seq<Event>)

  /** `file.suffix() == "desktop"`. */
  predicate IsDesktopFile(path: string) {
    Suffix(path) == "desktop"
  }

  /** A directory listing as `QDir` produces one with the `QDir::Files` filter:
      directories are clean absolute paths, entry names hold no `/`, and every entry is a
      file on the disk. */
  ghost predicate WellFormed(fs: FileSystem) {
    && (forall dir :: dir in fs.listing ==> CleanDir(dir))
    && (forall dir, k :: dir in fs.listing && 0 <= k < |fs.listing[dir]| ==>
          '/' !in fs.listing[dir][k] && ChildPath(dir, fs.listing[dir][k]) in fs.content)
  }

  /** `path` is the path of one of the entries `names` of `dir`. */
  ghost predicate Listed(dir: string, names: seq<string>, path: string) {
    exists k :: 0 <= k < |names| && path == ChildPath(dir, names[k])
  }

  /** The entries of a listing are its first entry and the entries after it. */
  lemma ListedCons(dir: string, names: seq<string>)
    requires |names| > 0
    ensures forall path :: Listed(dir, names, path) <==>
              path == ChildPath(dir, names[0]) || Listed(dir, names[1..], path)
  {
    forall path | Listed(dir, names[1..], path)
      ensures Listed(dir, names, path)
    {
      var k :| 0 <= k < |names[1..]| && path == ChildPath(dir, names[1..][k]);
      assert names[1..][k] == names[k + 1];
    }
    forall path | Listed(dir, names, path) && path != ChildPath(dir, names[0])
      ensures Listed(dir, names[1..], path)
    {
      var k :| 0 <= k < |names| && path == ChildPath(dir, names[k]);
      assert names[k] == names[1..][k - 1];
    }
  }

  /** `path` is a desktop file listed directly in `dir`. */
  ghost predicate ListedDesktop(fs: FileSystem, dir: string, path: string) {
    IsDesktopFile(path) && Listed(dir, fs.Entries(dir), path)
  }

  /** `toAppId`: the identifier from the lines of `path` as read now. The first line of a
      readable file that starts with the vendor tag decides; a file without such a line,
      one that cannot be read, or one that is gone gets the standard identifier. */
  function ToAppId(fs: FileSystem, roots: seq<string>, path: string): (id: string)
    ensures path !in fs.content || fs.content[path].None? ==> id == StandardAppId(roots, path)
    ensures path in fs.content && fs.content[path].Some? ==>
              var lines := fs.content[path].value;
              && ((forall i :: 0 <= i < |lines| ==> !IsPrefix(IdTag, lines[i])) ==> id == StandardAppId(roots, path))
              && (forall i :: FirstTaggedLine(lines, i) ==> id == StripAppIdVersion(RemoveAll(lines[i], IdTag)))
  {
    ResolveAppId(roots, path, fs.Lines(path))
  }

  /** The inner loop of the constructor: every entry of `dir` whose suffix is `desktop`
      is added to the watched files. */
  function WatchEntries(dir: string, names: seq<string>, files: set<string>): (watched: set<string>)
    ensures forall p :: p in watched <==> p in files || (IsDesktopFile(p) && Listed(dir, names, p))
    decreases |names|
  {
    if |names| == 0 then files
    else
      var p := ChildPath(dir, names[0]);
      var added := if IsDesktopFile(p) then files + {p} else files;
      var watched := WatchEntries(dir, names[1..], added);
      WatchEntriesStep(dir, names, IsDesktopFile, files, added, watched);
      watched
  }

  /** One turn of the constructor's inner loop, for any test `keep` of the entries: adding
      the first entry if it passes, then those among the others that pass, adds those
      among all the entries that pass. */
  lemma WatchEntriesStep(dir: string, names: seq<string>, keep: string -> bool,
                         files: set<string>, added: set<string>, watched: set<string>)
    requires |names| > 0
    requires var p := ChildPath(dir, names[0]);
             added == if keep(p) then files + {p} else files
    requires forall q :: q in watched <==> q in added || (keep(q) && Listed(dir, names[1..], q))
    ensures forall q :: q in watched <==> q in files || (keep(q) && Listed(dir, names, q))
  {
    ListedCons(dir, names);
  }

  /** `p` is a desktop file listed directly in one of the `roots` that exist. */
  ghost predicate UnderSomeRoot(fs: FileSystem, roots: seq<string>, p: string) {
    exists k :: 0 <= k < |roots| && fs.DirExists(roots[k]) && ListedDesktop(fs, roots[k], p)
  }

  /** The outer loop of the constructor: each root that exists is watched itself, with
      its desktop files; a root that does not exist is skipped. */
  function WatchRoots(fs: FileSystem, roots: seq<string>, w: WatchSet): (r: WatchSet)
    ensures forall d :: d in r.dirs <==> d in w.dirs || (d in roots && fs.DirExists(d))
    ensures forall p :: p in r.files <==> p in w.files || UnderSomeRoot(fs, roots, p)
    decreases |roots|
  {
    if |roots| == 0 then w
    else if !fs.DirExists(roots[0]) then
      var r := WatchRoots(fs, roots[1..], w);
      ListedUnderRootsCons(fs, roots);
      r
    else
      var root := roots[0];
      var r := WatchRoots(fs, roots[1..], WatchSet(w.dirs + {root}, WatchEntries(root, fs.Entries(root), w.files)));
      ListedUnderRootsCons(fs, roots);
      r
  }

  /** A desktop file listed in one of the existing `roots` is listed in the first of them
      or in one of the others. */
  lemma ListedUnderRootsCons(fs: FileSystem, roots: seq<string>)
    requires |roots| > 0
    ensures forall p :: UnderSomeRoot(fs, roots, p) <==>
              (fs.DirExists(roots[0]) && ListedDesktop(fs, roots[0], p)) || UnderSomeRoot(fs, roots[1..], p)
  {
    assert forall k :: 0 <= k < |roots[1..]| ==> roots[1..][k] == roots[k + 1];
  }

  /** The constructor: the watched directories are exactly the roots that exist, and the
      watched files exactly the desktop files listed directly in them. */
  function Construct(fs: FileSystem, roots: seq<string>): (w: WatchSet)
    ensures forall d :: d in w.dirs <==> d in roots && fs.DirExists(d)
    ensures forall p :: p in w.files <==>
              exists k :: 0 <= k < |roots| && fs.DirExists(roots[k]) && ListedDesktop(fs, roots[k], p)
  {
    WatchRoots(fs, roots, WatchSet({}, {}))
  }

  /** The desktop files listed in `names` of `dir` that are not in `snapshot`, in listing
      order. */
  function NewDesktopPaths(dir: string, names: seq<string>, snapshot: set<string>): (paths: seq<string>)
    ensures forall p :: p in paths <==> p !in snapshot && IsDesktopFile(p) && Listed(dir, names, p)
    decreases |names|
  {
    if |names| == 0 then []
    else
      var p := ChildPath(dir, names[0]);
      var rest := NewDesktopPaths(dir, names[1..], snapshot);
      ListedCons(dir, names);
      if IsDesktopFile(p) && p !in snapshot then [p] + rest else rest
  }

  /** The new desktop files of a listing are those among its first entry followed by
      those of the remaining entries. */
  lemma NewDesktopPathsCons(dir: string, names: seq<string>, snapshot: set<string>)
    requires |names| > 0
    ensures var p := ChildPath(dir, names[0]);
            NewDesktopPaths(dir, names, snapshot)
            == (if IsDesktopFile(p) && p !in snapshot then [p] else []) + NewDesktopPaths(dir, names[1..], snapshot)
  {
  }

  /** One `appAdded` event per path, in order, each with the path's identifier. */
  function Announce(fs: FileSystem, roots: seq<string>, paths: seq<string>): (events: seq<Event>)
    ensures |events| == |paths|
    ensures forall k :: 0 <= k < |paths| ==> events[k] == AppAdded(ToAppId(fs, roots, paths[k]))
  {
    if |paths| == 0 then []
    else [AppAdded(ToAppId(fs, roots, paths[0]))] + Announce(fs, roots, paths[1..])
  }

  /** Announcing some paths and then others is announcing them all. */
  lemma {:induction false} AnnounceAppend(fs: FileSystem, roots: seq<string>, a: seq<string>, b: seq<string>)
    ensures Announce(fs, roots, a + b) == Announce(fs, roots, a) + Announce(fs, roots, b)
  {
    if |a| == 0 {
      assert a + b == b;
    } else {
      assert (a + b)[1..] == a[1..] + b;
      AnnounceAppend(fs, roots, a[1..], b);
    }
  }

  /** The loop of `onDirectoryChanged` over the entries `names` of `dir`: a desktop file
      missing from `snapshot` is watched and announced. */
  function ScanEntries(fs: FileSystem, roots: seq<string>, dir: string, names: seq<string>,
                       snapshot: set<string>, w: WatchSet, events: seq<Event>): (s: Step)
    ensures s.watch.dirs == w.dirs
    ensures forall p :: p in s.watch.files <==> p in w.files || p in NewDesktopPaths(dir, names, snapshot)
    ensures s.events == events + Announce(fs, roots, NewDesktopPaths(dir, names, snapshot))
    decreases |names|
  {
    if |names| == 0 then Step(w, events)
    else
      var p := ChildPath(dir, names[0]);
      var added := if IsDesktopFile(p) && p !in snapshot then [p] else [];
      var s := ScanEntries(fs, roots, dir, names[1..], snapshot, w.(files := w.files + set q | q in added),
                           events + Announce(fs, roots, added));
      ScanStep(fs, roots, dir, names, snapshot, events, added);
      s
  }

  /** One turn of the loop of `onDirectoryChanged` adds the events of its entry to those
      the remaining entries bring. */
  lemma ScanStep(fs: FileSystem, roots: seq<string>, dir: string, names: seq<string>,
                 snapshot: set<string>, events: seq<Event>, added: seq<string>)
    requires |names| > 0
    requires var p := ChildPath(dir, names[0]);
             added == if IsDesktopFile(p) && p !in snapshot then [p] else []
    ensures var rest := NewDesktopPaths(dir, names[1..], snapshot);
            && NewDesktopPaths(dir, names, snapshot) == added + rest
            && events + Announce(fs, roots, added) + Announce(fs, roots, rest)
               == events + Announce(fs, roots, added + rest)
  {
    var rest := NewDesktopPaths(dir, names[1..], snapshot);
    NewDesktopPathsCons(dir, names, snapshot);
    AnnounceAppend(fs, roots, added, rest);
  }

  /** `onDirectoryChanged`: every desktop file listed directly in `dir` ends up watched; the
      ones that were not watched before the notification are announced with `appAdded`, one
      event each, in listing order. The watched directories do not change. */
  function DirectoryChanged(fs: FileSystem, roots: seq<string>, w: WatchSet, dir: string): (s: Step)
    ensures s.watch.dirs == w.dirs
    ensures forall p :: p in s.watch.files <==> p in w.files || ListedDesktop(fs, dir, p)
    ensures s.events == Announce(fs, roots, NewDesktopPaths(dir, fs.Entries(dir), w.files))
  {
    ScanEntries(fs, roots, dir, fs.Entries(dir), w.files, w, [])
  }

  /** `onFileChanged`: one event and no change to the watch set. A path that still exists
      was modified and is announced with `appInfoChanged` and its current identifier; a
      path that is gone is announced with `appRemoved` and its standard identifier. */
  function FileChanged(fs: FileSystem, roots: seq<string>, w: WatchSet, path: string): (s: Step)
    ensures s.watch == w
    ensures |s.events| == 1
    ensures fs.Exists(path) ==> s.events[0] == AppInfoChanged(ToAppId(fs, roots, path))
    ensures !fs.Exists(path) ==> s.events[0] == AppRemoved(StandardAppId(roots, path))
  {
    if fs.Exists(path) then Step(w, [AppInfoChanged(ToAppId(fs, roots, path))])
    else Step(w, [AppRemoved(StandardAppId(roots, path))])
  }
}
